=== FILE: README.md ===
# cfw-lyric core in Dafny

A Dafny model of the core of cfw-lyric, a lyrics service: songs, artists and
the song–artist associations between them, users who log in with JSON Web
Tokens, and the request guards in front of the routes. The model covers:

- the association reconciliation that `SongService.updateSong` performs over
  the `song_artist` table, and `createSong`, `getSongById` and `deleteSong`;
- the association repository: `create`, `update`, `updateMany`, `delete`,
  `deleteMany` and `findBySongId`;
- the duration parser and formatter and the `iat`/`exp` claims (sections 4.1.4
  and 4.1.6 of RFC 7519);
- the `auth` wrapper and the three authorisation guards;
- token issuing, login and registration;
- the accent-insensitive search key `vnNormalize`;
- the zod request schemas;
- the paging arithmetic of `findAll` and the shape of `findById`;
- the JSON response envelopes.

Each module follows one source file:

| module | source |
|---|---|
| `SongArtistRepository` | src/repository/songArtistRepository.ts |
| `SongRepository` | src/repository/songRepository.ts |
| `SongService` | src/service/songService.ts |
| `Time` | src/utils/time.ts |
| `AuthMiddleware` | src/middleware/auth.ts |
| `AuthService` | src/service/authService.ts, and `findByEmail` of src/repository/userRepository.ts |
| `Format` | src/utils/format.ts |
| `Schemas` | src/schema/userSchema.ts, src/schema/songSchema.ts, src/schema/artistSchema.ts |
| `Response` | src/utils/response.ts |
| `JsText`, `Claims`, `Wrappers` | shared: JavaScript digit and white-space rules, JWT claim maps, `Option`/`Result` |

The association table is a map from row id to row, plus the next id the
auto-increment key will hand out. Every repository call is a pure function
from table to table, and `updateSong` is their composition in the order the
code runs them. Thrown errors become `Result` values. Guard outcomes are a
`Verdict`: pass, 403, or a crash from reading a property of `undefined`.

Password hashing, hash comparison and token signing are function parameters.
So are the clock, Unicode canonical decomposition (NFD, Unicode Standard
Annex #15) and the lower-casing of non-ASCII characters.

The model follows the code as written. Six places stand out:

- `updateSong` should keep the associations it inserts, but it does not.
  The rows inserted at line 56 are read back at line 58 together with the
  song's older rows. No request entry can carry their fresh ids, so they
  land in the delete set and are removed at line 70
  (`SongService.UpdateSongScenario`). A version that reads the song's rows
  before inserting is modelled beside it; see Findings.
- The routes validate song bodies with src/schema/songSchema.ts. Its
  association entries have a `role` field, and zod drops the undeclared
  `type`. The service reads `type`, so every association the routes create
  or update has no type (`Schemas.RoutedBodiesHaveNoKind`).
- The `/login` and `/register` routes (src/index.ts:33-44) apply no schema.
  They destructure the raw JSON body and pass on only `email` and
  `password`, plus `name` for registration. `registerSchema` would strip any
  other key as well (`Schemas.RegisterIgnoresExtraFields`). Either way, a
  `role` in the body never reaches `registerUser`, so every registered user
  has the default role "user".
- Issued tokens carry `userId`, `username`, `iat` and `exp` but no `role`.
  So `requireRole` refuses every token the service issues
  (`AuthService.IssuedTokenNeverHasRole`).
- `updateSong` on an id no song has does not stop at its "Song not found"
  guard, because `findById` returns the truthy `{}`. The insert at line 56
  commits rows whose song id is NULL. Then `findBySongId(undefined)` at
  line 58 throws, because the D1 driver refuses to bind `undefined` as a
  query parameter. Nothing is deleted or updated, and the inserted rows stay
  behind (`SongService.UpdateSongOnMissingSong`).
- `deleteSong` deletes only the song row. The `song_id` column of
  `song_artist` references `song.id` with no `onDelete` action
  (src/db/schema.ts:69), and D1 enforces foreign keys. So the delete is
  refused while any association still names the song
  (`SongService.DeleteSong`).

## Model

| member | source | states |
|---|---|---|
| `JsText.NatToDecimal` | src/utils/time.ts:44-47 | A number rendered in a template literal is a non-empty digit string without a leading zero, and its digits read back as the number. |
| `JsText.DigitsValueLeadingZero` | src/utils/time.ts:17 | `parseInt(s, 10)` on a digit string ignores leading zeros. |
| `JsText.StringToIntOfDecimal` | src/middleware/auth.ts:56 | Converting the decimal rendering of an integer back to a number gives that integer. This is what a path id is compared through. |
| `Time.ParseTimeToSeconds` | src/utils/time.ts:3-40 | The empty string fails with the "undefined" error, and nothing else does. A non-empty string not of the form digits plus one of s/m/h/d fails with the format error, and nothing else does. Every success lies in [1, 31536000] and is a multiple of its unit. |
| `Time.ParseWellFormed` | src/utils/time.ts:16-39 | For a well-formed string: value 0 fails as non-positive; value × unit above one year fails as too long; otherwise the result is exactly value × unit. The first two are if-and-only-if. |
| `Time.ParseRendered` | src/utils/time.ts:9-39 | The same three outcomes for the decimal rendering of any natural number followed by a unit letter. |
| `Time.ParseAcceptedExamples` | src/utils/time.ts:24-31 | "60s"→60, "2m"→120, "24h"→86400, "7d"→604800, and "365d" gives exactly the one-year maximum. |
| `Time.ParseTooLongInDays` | src/utils/time.ts:33-37 | "366d" and "400d" fail as too long. |
| `Time.ParseTooLongInHours` | src/utils/time.ts:33-37 | "8761h", one hour past a year, fails as too long. |
| `Time.ParseRejectedExamples` | src/utils/time.ts:4-22 | "0s" and "000m" fail as non-positive. "" fails as undefined. "abc", "5", "5w", "-5s" and "1.5h" fail with the format error. |
| `Time.UnitFor` | src/utils/time.ts:44-47 | The unit `formatSeconds` picks: seconds below 60, minutes below 3600, hours below 86400, days from there on. |
| `Time.FormatSeconds` | src/utils/time.ts:43-48 | The rendering ends with the unit letter `UnitFor` picks. For a non-negative count, it starts with the decimal digits of the count divided by that unit and rounded down, without a leading zero. |
| `Time.FormatThenParse` | src/utils/time.ts:43-48 | For 1 ≤ s ≤ one year, parsing `formatSeconds(s)` succeeds and gives a value b ≤ s with s − b below the chosen unit. b = s exactly when s is a multiple of that unit. |
| `Time.FormatParsesToFloor` | src/utils/time.ts:43-48 | Parsing `formatSeconds(s)` gives s rounded down to a multiple of the unit `formatSeconds` picked. |
| `Time.FormatThresholds` | src/utils/time.ts:44-46 | The thresholds are exact: 59→"59s", 60→"1m", 3599→"59m". |
| `Time.FormatLargeUnits` | src/utils/time.ts:46-47 | 86399→"23h", and one year→"365d". |
| `Time.FormatNonPositive` | src/utils/time.ts:44 | A zero or negative count renders to a string the parser rejects. |
| `Time.CreateJWTPayload` | src/utils/time.ts:51-59 | Fails exactly when the lifetime fails to parse, with the same error. Otherwise the result has the caller's keys plus `exp` and `iat`, and keeps every other caller claim. `iat` is the second clock reading in seconds. exp − iat equals the parsed lifetime when both readings agree, and is at most that when time moves forward. |
| `SongArtistRepository.Create` | src/repository/songArtistRepository.ts:8-10 | Every given row is stored under a consecutive fresh id, in list order. Old rows are unchanged. No other id appears. The counter advances by the number of rows. |
| `SongArtistRepository.Update` | src/repository/songArtistRepository.ts:12-19 | Only row `id` changes, and only in the fields the patch carries. The id set and the counter are unchanged. |
| `SongArtistRepository.UpdateMany` | src/repository/songArtistRepository.ts:21-38 | The id set is unchanged. No row changes `songId`. A row the list does not name is unchanged. |
| `SongArtistRepository.UpdateManyNamedRow` | src/repository/songArtistRepository.ts:25-33 | With distinct ids, a named row takes exactly that entry's `artistId` and `type`, undefined fields left alone, whichever song the row belongs to. |
| `SongArtistRepository.Delete` | src/repository/songArtistRepository.ts:40-45 | Removes exactly row `id`. Every other row is unchanged. |
| `SongArtistRepository.DeleteMany` | src/repository/songArtistRepository.ts:47-52 | Removes exactly the listed ids. Every other row is unchanged. |
| `SongArtistRepository.FindBySongId` | src/repository/songArtistRepository.ts:54-59 | Throws exactly when the song id is undefined, since the driver refuses to bind `undefined`. Otherwise it returns exactly the rows whose `songId` equals the given one, with their stored values. |
| `SongArtistRepository.OperationsKeepValid` | src/repository/songArtistRepository.ts:12-52 | `update`, `updateMany`, `delete` and `deleteMany` keep every stored id below the counter. |
| `SongArtistRepository.EmptyBatchesChangeNothing` | src/repository/songArtistRepository.ts:8-52 | `deleteMany([])`, `updateMany([])` and `create([])` leave the table as it was. |
| `SongArtistRepository.FindAfterCreate` | src/repository/songArtistRepository.ts:8-59 | After an insert, a song's rows are its earlier rows plus the inserted rows that carry that song id. |
| `SongRepository.FindById` | src/repository/songRepository.ts:84-94 | The result is always truthy, `{}` included. It is `{}` exactly when no song has the id. Otherwise it holds that song and, as `artists`, exactly the association rows with that song id, with their stored values. |
| `SongRepository.CeilDiv` | src/repository/songRepository.ts:79 | `Math.ceil(a / b)`: the least integer not below a/b, so q·b ≥ a > (q−1)·b when b > 0, and q·b ≤ a < (q−1)·b when b < 0. |
| `SongRepository.FindAllShape` | src/repository/songRepository.ts:9-82 | Unpaged, with no limit, exactly when `page` or `pageSize` is missing (undefined or NaN) or 0. Otherwise offset = (page − 1)·pageSize and limit = pageSize, with `page` and `pageSize` echoed. A missing count row gives 0. With pageSize > 0, totalPages·pageSize ≥ totalCount and (totalPages − 1)·pageSize < totalCount for a positive count; a zero count gives zero pages. |
| `SongRepository.LastPageIsLast` | src/repository/songRepository.ts:79 | The last announced page starts inside the result set, and the page after it starts past the end. |
| `SongService.CreateSong` | src/service/songService.ts:31-40 | One association per request entry, in order. Each has the new song's id and the entry's `artistId` and `type`. Nothing else changes. |
| `SongService.Unkeyed` | src/service/songService.ts:48-49 | The filter keeps every id-less entry as often as it occurs, and no keyed entry. |
| `SongService.UnkeyedAppend` | src/service/songService.ts:48-49 | The filter keeps request order: filtering a concatenation filters each part. |
| `SongService.NewRows` | src/service/songService.ts:48-54 | One row per id-less entry, the i-th stamped from the i-th id-less entry. |
| `SongService.NewRowsAppend` | src/service/songService.ts:48-54 | Building rows for a concatenation of entries gives the concatenation of their rows. |
| `SongService.NewRowsOfEntry` | src/service/songService.ts:48-54 | A single entry gives one row, stamped with the song id, its artist and its type, exactly when it has no id. |
| `SongService.NewRowsAreUnkeyed` | src/service/songService.ts:48-54 | Each row built for the insert comes from an id-less entry, and every id-less entry gets one. |
| `SongService.DeleteSet` | src/service/songService.ts:62-68 | The delete set is exactly the re-read rows whose id no request entry carries. |
| `SongService.KeyedUpdatesNames` | src/service/songService.ts:72-83 | An id appears in the update list exactly when some request entry carries it. |
| `SongService.KeyedUpdatesContains` | src/service/songService.ts:72-83 | Every keyed entry appears, converted, in the update list. |
| `SongService.KeyedUpdatesDistinct` | src/service/songService.ts:72-83 | Distinct request ids give an update list with distinct ids. |
| `SongService.UpdateListIsKeyedUpdates` | src/service/songService.ts:72-77 | The `includes` filter never removes an entry, because the delete set holds only ids the request does not carry. |
| `SongService.SongUpdate` | src/service/songService.ts:87-88 | The scalar song update is the body minus `artists`: every other field is kept, and nothing is added. |
| `SongService.UpdateSong` | src/service/songService.ts:42-91 | Completes exactly when the song exists. Otherwise the re-read at line 58 throws; the "Song not found" guard never fires. Keeps ids below the counter, also in the table a failed call leaves. Hands the song update the body without `artists`. |
| `SongService.UpdateSongMembership` | src/service/songService.ts:56-85 | A row is present afterwards exactly when it existed and is named by the request or belongs to another song, or it was just inserted and the request happens to name its fresh id. |
| `SongService.InsertFirstKeys` | src/service/songService.ts:56-70 | With the re-read after the insert, a fresh id is deleted exactly when the request does not name it, and an old id exactly when it belongs to the song and is not named. |
| `SongService.StepKeys` | src/service/songService.ts:56-85 | After the insert, the delete and the update, the ids present are the old ones and the fresh ones, less the deleted ones; the update adds and removes none. |
| `SongService.UpdateSongNamedRow` | src/service/songService.ts:62-85 | An existing row the request names keeps its `songId` and takes that entry's `artistId` and `type`, even when it belongs to another song. |
| `SongService.UpdateSongOtherRow` | src/service/songService.ts:56-85 | An unnamed row of another song is left exactly as it was. |
| `SongService.UpdateSongInsertsUnkeyed` | src/service/songService.ts:48-56 | The rows inserted are exactly the id-less entries, in request order and with multiplicity: one per entry, stamped with the stored song's id. |
| `SongService.UpdateSongDropsItsInserts` | src/service/songService.ts:56-70 | When every request id was handed out before, none of the rows the call inserts survives. The table afterwards holds only ids it held before. |
| `SongService.UpdateSongKeepsOnlyOldKeys` | src/service/songService.ts:56-70 | Under the same condition, no id appears that was not there before the call. |
| `SongService.UpdateSongEmptyListDeletesAll` | src/service/songService.ts:62-70 | `artists: []` deletes every association of the song and leaves every other row as it was. The empty insert before it is taken as a no-op; see Left out. |
| `SongService.UpdateSongWithoutArtistsKeepsTable` | src/service/songService.ts:48-85 | With `artists` absent, nothing is inserted, deleted or updated, and the table is unchanged, whether the call completes or throws at the re-read. The empty insert is taken as a no-op; see Left out. |
| `SongService.UpdateSongUpdatesEveryKeyedEntry` | src/service/songService.ts:72-85 | When the call completes, the update list is every entry with a defined id, in request order. It names an id exactly when the request does. |
| `SongService.UpdateSongOnMissingSong` | src/service/songService.ts:43-60 | For an id no song has, `{}` passes the guard and the call throws at the re-read. The table it leaves holds every old row unchanged plus one row per id-less entry, in order, with a NULL song id, and nothing else. |
| `SongService.ReadFirstOnMissingSong` | src/service/songService.ts:43-60 | Under the corrected order, an unknown id throws at the re-read before anything is written, so the table is unchanged. |
| `SongService.SetArtistAndKindIdempotent` | src/repository/songArtistRepository.ts:25-33 | Applying the same `updateMany` entry twice equals applying it once. |
| `SongService.UpdateSongTwiceAt` | src/service/songService.ts:42-91 | Repeating a request keeps each id exactly when the first call left it, with the same row. |
| `SongService.UpdateSongTwice` | src/service/songService.ts:42-91 | With distinct, previously handed-out ids, sending a request twice leaves the same associations as sending it once. |
| `SongService.RelistAndAddKeepsA` | src/service/songService.ts:62-70 | In a two-row edit that re-lists `a` and adds one entry, `a` survives. |
| `SongService.RelistAndAddDropsB` | src/service/songService.ts:62-70 | In that edit, the unlisted `b` is deleted. |
| `SongService.RelistAndAddInserts` | src/service/songService.ts:48-56 | In that edit, exactly one row is inserted, for the id-less entry. |
| `SongService.RelistAndAddKeys` | src/service/songService.ts:56-70 | In that edit, only `a` is left; the inserted row is gone. |
| `SongService.RelistAndAddRowA` | src/service/songService.ts:72-85 | In that edit, `a` takes the listed entry's artist and type. |
| `SongService.UpdateSongRelistAndAdd` | src/service/songService.ts:42-91 | That edit ends with `a` alone, updated, after inserting one row. |
| `SongService.UpdateSongScenario` | src/service/songService.ts:42-91 | Song 7 has rows 1 (artist 10, singer) and 2 (artist 20, composer). The request re-lists 1 as composer and adds artist 30 as band. Only row 1 is left, now composer. |
| `SongService.UpdateSongReadFirst` | src/service/songService.ts:42-91 | The corrected order: the song's rows are read before the insert. It completes exactly when the song exists, and otherwise throws at the re-read. It keeps ids below the counter, and hands the song update the body without `artists`. |
| `SongService.ReadFirstMembership` | src/service/songService.ts:56-85 | Under the corrected order, an old row survives exactly when the request names it or it belongs to another song, and every inserted row survives. |
| `SongService.ReadFirstKeepsInserts` | src/service/songService.ts:56-70 | Under the corrected order, every inserted row is still present, under its fresh id, with its values. |
| `SongService.ReadFirstKeepsInsertAt` | src/service/songService.ts:56-70 | The same, for one inserted row. |
| `SongService.ReadFirstNamedRow` | src/service/songService.ts:62-85 | Under the corrected order, an existing named row takes that entry's `artistId` and `type`. |
| `SongService.ReadFirstRelistAndAddKeys` | src/service/songService.ts:56-70 | Under the corrected order, the two-row edit leaves exactly `a` and the new row. |
| `SongService.ReadFirstRelistAndAdd` | src/service/songService.ts:42-91 | Under the corrected order, the two-row edit ends with `a` updated and the added entry stored. |
| `SongService.ReadFirstScenario` | src/service/songService.ts:42-91 | Under the corrected order, the worked case ends with two rows: 1 as composer, and 3 for artist 30 as band. |
| `SongService.DeleteSong` | src/service/songService.ts:93-95 | Refused exactly when the song exists and `findBySongId` finds association rows for it, because of the foreign key at src/db/schema.ts:69. Otherwise it removes exactly that song, and every other song keeps its value. |
| `SongService.DeleteSongKeepsReferences` | src/service/songService.ts:93-95 | If every association names a stored song before the call, that still holds after a successful delete. |
| `SongService.DeleteSongAfterItsAssociations` | src/service/songService.ts:93-95 | Once the song's associations are deleted, deleting the song succeeds and removes exactly that song. |
| `AuthMiddleware.Auth` | src/middleware/auth.ts:7-20 | The verifier is built with the request's secret only when none exists yet. Once built, it is kept. A failed build, a thrown verification or a downstream exception gives 401 `Unauthorized`. Otherwise the downstream response is returned. |
| `AuthMiddleware.ServeAll` | src/middleware/auth.ts:5-20 | One reply per request, and a built verifier stays as it is. |
| `AuthMiddleware.ReadyUsesItsSecret` | src/middleware/auth.ts:5-20 | Once the verifier exists, every later request is checked with its secret, whatever the request's own environment says. |
| `AuthMiddleware.FirstSecretIsKept` | src/middleware/auth.ts:5-20 | From the unset state, the requests before the first successful build get 401. That build fixes the secret for itself and every later request. |
| `AuthMiddleware.RequireRole` | src/middleware/auth.ts:22-32 | 403 exactly when the payload is absent or its `role` is not the same string. Otherwise it passes, and it never crashes. |
| `AuthMiddleware.RequireRoleOrOwner` | src/middleware/auth.ts:34-48 | Crashes exactly when the payload is absent and the id is non-empty. Passes on the exact role. Otherwise passes exactly when a payload is present, the id is non-empty, and the id loosely equals `userId`. |
| `AuthMiddleware.RequireOwner` | src/middleware/auth.ts:50-62 | Crashes exactly when the payload is absent and the id is non-empty. Passes exactly when the payload is present, the id is non-empty, and the id loosely equals `userId`. |
| `AuthMiddleware.RoleOrOwnerIsEither` | src/middleware/auth.ts:22-62 | The combined guard passes exactly when the role guard or the owner guard would. Without the role, it answers as the owner guard does. |
| `AuthMiddleware.OwnerIgnoresRole` | src/middleware/auth.ts:50-62 | Changing the role claim never changes the owner guard's verdict. |
| `AuthMiddleware.RoleIsExact` | src/middleware/auth.ts:26 | No role hierarchy: "admin" does not satisfy "user", and "Admin" does not satisfy "admin". |
| `AuthMiddleware.OwnerLooseEqualityExamples` | src/middleware/auth.ts:56 | "05" and "+5" match a numeric `userId` 5. "6" and "" do not. A string `userId` "5" needs an exact match. An absent payload crashes. |
| `AuthService.FindByEmail` | src/repository/userRepository.ts:20-26 | Finds nothing exactly when no user has the email. Otherwise returns a stored user with that email. |
| `AuthService.Payload` | src/service/authService.ts:39-44 | The claim set is exactly `userId`, `username` (the email), `iat` and `exp = iat + lifetime`. |
| `AuthService.GenerateToken` | src/service/authService.ts:35-49 | Fails exactly when the configured lifetime fails to parse, with its error. Otherwise signs those claims with the secret, at iat = ⌊now/1000⌋, and echoes the lifetime string. |
| `AuthService.PayloadIsJWTPayload` | src/service/authService.ts:36-44 | The signed claims are what `createJWTPayload` builds from the two identity claims with one clock reading. The lifetime lies in [1, one year]. |
| `AuthService.IssuedTokenNeverHasRole` | src/service/authService.ts:39-44 | `requireRole` refuses every issued token, whatever role it asks for. |
| `AuthService.IssuedTokenOwnsItsId` | src/service/authService.ts:39-44 | The owner guard accepts an issued token on the path of its own user id. |
| `AuthService.Login` | src/service/authService.ts:52-64 | Unknown email gives "User not found". A failed comparison gives "Invalid credentials". Otherwise it gives the token result. A success implies a stored user with that email whose hash the password matches. |
| `AuthService.LoginUnknownEmail` | src/service/authService.ts:53-56 | For an unknown email the outcome depends on neither the comparison, the configuration nor the clock. |
| `AuthService.LoginChecksPasswordFirst` | src/service/authService.ts:58-63 | A wrong password is reported even when the lifetime setting is invalid. |
| `AuthService.RegisterUser` | src/service/authService.ts:67-76 | A taken email changes nothing. Otherwise appends a user with the next id, the name and email given, the hash of the password, and role "user", then issues the token. |
| `AuthService.RegisterThenLogin` | src/service/authService.ts:52-76 | After registering a new email, logging in with the same password succeeds, given a comparison that accepts the hash. |
| `AuthService.FirstMatchAfterAppend` | src/repository/userRepository.ts:20-30 | A user appended with a new email is the one `findByEmail` returns. |
| `AuthService.RegisterStoresHashEvenOnBadExpiry` | src/service/authService.ts:67-76 | An invalid lifetime fails the call after the insert. The new row is stored with the hash, never the plaintext. |
| `Format.StripMarks` | src/utils/format.ts:5 | No U+0300–U+036F character remains. Only characters of the input remain. A mark-free input is unchanged. |
| `Format.StripMarksAppend` | src/utils/format.ts:5 | Mark removal works piecewise on a concatenation, so the kept characters stay in order. |
| `Format.StripMarksOfChar` | src/utils/format.ts:5 | A single mark is dropped, and any other single character is kept. |
| `Format.DropStroke` | src/utils/format.ts:6-7 | đ and Đ become d, every other character is kept, and no đ or Đ remains. |
| `Format.ReplaceStrokes` | src/utils/format.ts:6-7 | Character by character, đ and Đ become d and every other character is kept, at the same position. |
| `Format.LowerChar` | src/utils/format.ts:8 | ASCII capitals are lowered, and other ASCII characters are kept. |
| `Format.LowerCase` | src/utils/format.ts:8 | On ASCII input the length is kept and each character is lowered as above. |
| `Format.Sanitize` | src/utils/format.ts:9 | Keeps `[a-z0-9]` and white space, turns every other character into a space, and keeps the length. |
| `Format.TrimStart` | src/utils/format.ts:11 | The result is a suffix that does not start with white space. |
| `Format.TrimStartDropsSpace` | src/utils/format.ts:11 | Everything `trimStart` drops is white space. |
| `Format.TrimEnd` | src/utils/format.ts:11 | The result is a prefix that does not end with white space. |
| `Format.TrimEndDropsSpace` | src/utils/format.ts:11 | Everything `trimEnd` drops is white space. |
| `Format.TrimIsSlice` | src/utils/format.ts:11 | `trim` cuts a contiguous slice out of the string. |
| `Format.TrimmedEnds` | src/utils/format.ts:11 | Neither end of a trimmed string is white space. |
| `Format.Collapse` | src/utils/format.ts:10 | Empty exactly when the input is. Starts with a space exactly when the input starts with white space. Never has two spaces in a row. Has only `[a-z0-9 ]` when the input has only those and white space. |
| `Format.CollapseKeepsNonSpace` | src/utils/format.ts:10 | Collapsing keeps every character that is not white space, in order. |
| `Format.NonSpaceOfTrimStart` | src/utils/format.ts:10 | Skipping leading white space keeps every other character. |
| `Format.TrimStartOfRun` | src/utils/format.ts:10 | A run of white space in front of text that does not start with white space is skipped exactly. |
| `Format.CollapseRun` | src/utils/format.ts:10 | A maximal run of white space becomes exactly one space. |
| `Format.CollapseKeepsChar` | src/utils/format.ts:10 | A character that is not white space is copied unchanged. With `CollapseRun`, this fixes the result on every string, run by run. |
| `Format.VnNormalize` | src/utils/format.ts:1-12 | `null` exactly for a missing or empty string. |
| `Format.CollapseOfSanitized` | src/utils/format.ts:9-10 | Collapsing sanitised text leaves only `[a-z0-9 ]`. |
| `Format.TrimOfCollapsed` | src/utils/format.ts:10-11 | Trimming collapsed `[a-z0-9 ]` text gives a clean key. |
| `Format.TrimOfUnpadded` | src/utils/format.ts:11 | Trimming changes nothing when both ends are key characters. |
| `Format.NormalizedIsClean` | src/utils/format.ts:1-12 | Every result has only a–z, 0–9 and spaces, no space at either end, and no two spaces in a row. |
| `Format.LowerCaseOfKey` | src/utils/format.ts:8 | Lowering leaves `[a-z0-9 ]` text alone. |
| `Format.CollapseOfClean` | src/utils/format.ts:10 | Collapsing leaves `[a-z0-9 ]` text without double spaces alone. |
| `Format.Idempotent` | src/utils/format.ts:1-12 | A non-empty clean key normalises to itself. |
| `Format.LaterStepsKeepClean` | src/utils/format.ts:8-11 | Lowering, sanitising, collapsing and trimming leave a non-empty clean key alone. |
| `Format.KeyStepsKeepClean` | src/utils/format.ts:9-11 | Sanitising, collapsing and trimming leave a non-empty clean key alone. |
| `Format.KeyStringIsFixed` | src/utils/format.ts:5-9 | Mark stripping, stroke replacement and sanitising leave `[a-z0-9 ]` text alone. |
| `Format.LowerCaseOfPlainAscii` | src/utils/format.ts:8 | ASCII text without capitals is not changed by lowering. |
| `Format.TrimStartOfSpaces` | src/utils/format.ts:11 | Trimming all-white-space text gives nothing. |
| `Format.SpacesGiveEmpty` | src/utils/format.ts:10-11 | A run of white space collapses to one space, which trimming removes. |
| `Format.NoKeyCharsSteps` | src/utils/format.ts:5-9 | ASCII text without letters or digits becomes all white space of the same length. |
| `Format.NoKeyCharsGiveEmptyKey` | src/utils/format.ts:2-11 | Such text gives the empty key, not `null`. |
| `Format.PunctuationGivesEmptyKey` | src/utils/format.ts:2-11 | "!!!" gives "". Normalising "" or a missing value gives `null`. |
| `Format.AccentSteps` | src/utils/format.ts:5-7 | Stripping marks and strokes from "Đ", "a", U+0300 gives "da". |
| `Format.AccentsAndStrokeDropped` | src/utils/format.ts:3-11 | "Đà", decomposed to U+0110, "a" and U+0300, normalises to "da". |
| `Format.CleanAfterStrokes` | src/utils/format.ts:8-11 | When mark and stroke removal already gives a clean key, that key is the result. |
| `Format.AsciiLower` | src/utils/format.ts:8 | Capitals move to the matching lower-case letter, and everything else is kept. |
| `Format.LowerCaseOfAlnum` | src/utils/format.ts:8 | Lowering ASCII letters and digits lowers the capitals and keeps the digits, in order. |
| `Format.AlnumIsUnmarked` | src/utils/format.ts:5-7 | Mark and stroke removal leave ASCII letters and digits alone. |
| `Format.LoweredWordIsClean` | src/utils/format.ts:8-11 | Lowered letters and digits form a clean key. |
| `Format.AsciiWordIsLowered` | src/utils/format.ts:1-12 | A word of ASCII letters and digits normalises to its lower-case form, digits kept. |
| `Schemas.Utf16Length` | src/schema/userSchema.ts:7 | zod's `min` counts UTF-16 units: at least the character count, and equal to it inside the Basic Multilingual Plane. |
| `Schemas.EmailScanSound` | src/schema/userSchema.ts:4-6 | Every string the scan accepts matches `^[^\s@]+@[^\s@]+\.[^\s@]+$`. |
| `Schemas.EmailPatternScanned` | src/schema/userSchema.ts:4-6 | Every string the expression matches passes the scan. |
| `Schemas.EmailScanIsPattern` | src/schema/userSchema.ts:4-6 | The scan accepts exactly the matching strings: one '@' not first, no white space, and a '.' after the '@' with a character on each side. |
| `Schemas.EmailAccepted` | src/schema/userSchema.ts:4-6 | "a.b@c.d.e" is accepted. |
| `Schemas.SampleEmail` | src/schema/userSchema.ts:4-6 | "a@b.c" is accepted. |
| `Schemas.EmailRejectedShape` | src/schema/userSchema.ts:4-6 | "a@b", "@b.c", "a@.c" and "a@b." are refused. |
| `Schemas.EmailRejectedChars` | src/schema/userSchema.ts:4-6 | A second '@' or a space is refused. |
| `Schemas.UserSchemaHierarchy` | src/schema/userSchema.ts:3-27 | With the same email rule in all three, `userSchema` implies `registerSchema`, which implies `loginSchema`. |
| `Schemas.PasswordThreshold` | src/schema/userSchema.ts:7 | A 5-character password is refused, and 6 characters are accepted. |
| `Schemas.NameThreshold` | src/schema/userSchema.ts:15 | A 2-character name is refused, and 3 characters are accepted. |
| `Schemas.UserOptionalFields` | src/schema/userSchema.ts:24-26 | `imageUrl`, `active` and `role` may be left out. |
| `Schemas.UserRoleExamples` | src/schema/userSchema.ts:26 | A role outside {user, admin} is refused. |
| `Schemas.ParseLogin` | src/schema/userSchema.ts:3-8 | Yields an input exactly for valid bodies, carrying their email and password. |
| `Schemas.ParseRegister` | src/schema/userSchema.ts:10-16 | Yields an input exactly for valid bodies, carrying their email, password and name. |
| `Schemas.RegisterIgnoresExtraFields` | src/schema/userSchema.ts:10-16 | An extra field such as `role` changes nothing about the parsed input, and the registered user gets role "user". |
| `Schemas.ToCredit` | src/schema/songSchema.ts:3-8 | A validated entry keeps `artistId` and the optional `id`. Its kind is undefined through songSchema.ts, and one of the four enum values through artistSchema.ts. |
| `Schemas.ToBody` | src/schema/songSchema.ts:10-19 | The body keeps `artists` exactly when sent, each entry the validated form of the matching item, in order. Every declared text field sent is kept with its value, and no other field is added. |
| `Schemas.RoutedBodiesHaveNoKind` | src/schema/songSchema.ts:3-8 | Through the routed schema, no association entry reaches the service with a type. |
| `Schemas.ArtistFileBodiesHaveKinds` | src/schema/artistSchema.ts:3-8 | Through the other schema, every entry carries one of singer, composer, producer, band. |
| `Schemas.PartialBodyWithoutArtists` | src/schema/songSchema.ts:18 | A partial body without `artists` reaches the service without it. |
| `Schemas.FullSchemaNeedsArtists` | src/schema/songSchema.ts:18 | The full schemas require an `artists` array, possibly empty. |
| `Schemas.SchemasDisagree` | src/schema/artistSchema.ts:3-19 | A `role` entry passes only the routed schema and a `type` entry only the other. "band" is no routed role. Empty strings pass only the routed schema. |
| `Response.Success` | src/utils/response.ts:26-31 | Code 200 with the data. |
| `Response.SuccessWithPage` | src/utils/response.ts:33-39 | Code 200 with the data and the meta. |
| `Response.Error` | src/utils/response.ts:41-46 | An undefined code becomes 500, a given code is kept, and the message is unchanged. |
| `Response.BadRequest` | src/utils/response.ts:47-49 | Code 400, with the message unchanged. |
| `Response.NotFound` | src/utils/response.ts:50-52 | Code 404, with the message unchanged. |
| `Response.Unauthorized` | src/utils/response.ts:53-55 | Code 401, with the message unchanged. |
| `Response.Forbidden` | src/utils/response.ts:56-58 | Code 403, with the message unchanged. |
| `Response.ErrorHelpersAreDistinct` | src/utils/response.ts:47-58 | The four helpers give four different 4xx codes, keep the message, and never give the 500 fallback. |

## Left out

- SQL: joins, `LIKE`, `DISTINCT`, `count(*)` and the row lists `findAll` returns are storage work. Only the paging decision, offset, limit and page metadata are modelled. The count query's artist filter tests the table object `artist` instead of `artistName` (src/repository/songRepository.ts:65), so the count and the listing can filter differently. The model does not relate them.
- The song table's own `create`, `update` and `delete` are storage calls. `createSong` is modelled after the song row exists (`songId` is a parameter). `updateSong`'s last step is represented by the fields it passes on.
- The database middleware (a proxy that stamps `updatedAt`), the context registries, routing and the environment type are plumbing.
- Errors raised by the query builder or by SQLite are not modelled: an empty `values()`, an empty `set`, and failed transactions. The same goes for constraint violations, except three: the unique email index, the undefined bind in `findBySongId`, and the song foreign key that `deleteSong` meets. An association whose artist does not exist is stored as if the `artist_id` reference were not checked.
- SongService.UpdateSong: line 56 calls `create(newSongArtists ?? [])` even when no request entry lacks an id. That includes `artists: []` and an absent `artists`. The query builder's `values([])` is an error for an empty list, but the model treats this empty insert as a no-op (`Create(t, [])` returns `t`). So for a stored song the model's `updateSong` completes, and `UpdateSongEmptyListDeletesAll` and `UpdateSongWithoutArtistsKeepsTable` describe the call as if that insert did nothing. `UpdateSongReadFirst` makes the same choice.
- SongArtistRepository.UpdateMany: `Promise.all` inside a transaction is modelled as statements in list order. The row-level lemmas require distinct ids, because the outcome for duplicate ids depends on scheduling.
- JavaScript numbers are unbounded integers. Fractional or NaN ids, page sizes and clock readings, and floating-point rounding in `parseInt` of very long digit strings (any such value exceeds a year anyway), are not modelled.
- AuthMiddleware.RequireOwner: the string-to-number conversion in `id != payload.userId` is modelled only for an optional sign followed by ASCII digits. A padded, fractional, exponent or hexadecimal path id such as " 5", "5.0", "5e0" or "0x5" is treated as unequal to the number, where JavaScript would convert it.
- AuthMiddleware.RequireRoleOrOwner: same restriction on the string-to-number conversion as `RequireOwner`.
- AuthMiddleware.Auth: how hono's `jwt` middleware verifies a token (header parsing, signature and expiry checks) is a parameter of each request, `run`.
- bcrypt's salt generation, hashing and comparison, token signing, the clock, Unicode NFD, and non-ASCII lower-casing are parameters. No property of them is assumed, except where a lemma names one as its precondition.
- `userSchema.partial()`, the user and artist repositories and services, and `getAllSongs` are pass-throughs to storage. They are not modelled.
- Refresh tokens, slug generation, soft deletion and cascading deletes do not exist in this code and are not modelled.

## Findings

| source | as written | input that shows it | evidently intended | confidence | as-written member | corrected member |
|---|---|---|---|---|---|---|
| src/service/songService.ts:56-70 | The song's associations are re-read after the new ones are inserted, so the new rows land in the delete set and are removed in the same call. | Song 7 with rows 1 (artist 10, singer) and 2 (artist 20, composer); body `artists: [{id: 1, artistId: 10, type: "composer"}, {artistId: 30, type: "band"}]`. Only row 1 remains. | Read the existing associations before inserting. Row 1 is updated, row 2 deleted, and the new row for artist 30 kept: two rows. | high; not executed | `SongService.UpdateSongDropsItsInserts` | `SongService.ReadFirstKeepsInserts` |
| src/schema/songSchema.ts:7 | The routed schema names the association kind `role`. zod drops the undeclared `type`, and the service reads `type` (src/service/songService.ts:36, 53, 82). So the kind is never stored. | Entry `{songId: 1, artistId: 2, role: "singer"}`: it passes validation and reaches the service with `type` undefined. | Declare the field as `type`, as src/schema/artistSchema.ts does. Every entry then reaches the service with a kind from the enum. | high; not executed | `Schemas.RoutedBodiesHaveNoKind` | `Schemas.ArtistFileBodiesHaveKinds` |

=== FILE: auth_middleware.dfy ===
/**
 * The request guards of src/middleware/auth.ts: the token-checking `auth`
 * wrapper with its lazily built verifier, and the three authorisation
 * decisions taken over the verified claim set and the `:id` path segment.
 */
module AuthMiddleware {
  import opened Wrappers
  import opened JsText
  import opened Claims

  /** A JSON reply `{ message }` with its HTTP status. */
  datatype Reply = Reply(status: int, message: string)

  const Unauthorized: Reply := Reply(401, "Unauthorized")
  const ForbiddenReply: Reply := Reply(403, "Forbidden")

  // ------------------------------------------------------------------ auth

  /** The module-level `jwtMiddleware` variable: unset until the first request
      that manages to build it, and from then on the verifier built with that
      request's secret. */
  datatype AuthState = Uninit | Ready(secret: string)

  /** What awaiting the token middleware does on one request: it returns a
      response (its own rejection, or whatever the downstream handlers
      returned) or an exception escapes from it or from downstream. */
  datatype Run = Returned(response: Reply) | Threw

  /** One request as `auth` sees it: the `JWT_SECRET` of its environment and,
      for any secret, what the middleware built with that secret does on it.
      `builds` says whether the middleware factory accepts this secret
      (building it throws otherwise, for example on a missing secret). */
  datatype Request = Request(envSecret: string, builds: bool, run: string -> Run)

  /** `auth`: builds the verifier on first use, then delegates to it; an
      exception from building, verifying or downstream becomes 401. The
      returned state is the value of the module variable afterwards. */
  function Auth(st: AuthState, req: Request): (r: (AuthState, Reply))
    ensures st.Ready? ==> r.0 == st
    ensures st.Uninit? ==> (r.0.Ready? <==> req.builds)
    ensures r.0.Ready? && st.Uninit? ==> r.0.secret == req.envSecret
    ensures r.0.Uninit? ==> r.1 == Unauthorized
    ensures r.0.Ready? ==> match req.run(r.0.secret)
      case Threw => r.1 == Unauthorized
      case Returned(resp) => r.1 == resp
  {
    var st' := if st.Uninit? && req.builds then Ready(req.envSecret) else st;
    if st'.Uninit? then (st', Unauthorized)
    else match req.run(st'.secret)
      case Threw => (st', Unauthorized)
      case Returned(resp) => (st', resp)
  }

  /** A sequence of requests served one after another by the same worker. */
  function ServeAll(st: AuthState, reqs: seq<Request>): (r: (AuthState, seq<Reply>))
    ensures |r.1| == |reqs|
    ensures st.Ready? ==> r.0 == st
    decreases |reqs|
  {
    if reqs == [] then (st, [])
    else
      var (st1, reply) := Auth(st, reqs[0]);
      var (st2, rest) := ServeAll(st1, reqs[1..]);
      (st2, [reply] + rest)
  }

  /** What request `req` gets from a verifier built with `secret`. */
  function Verified(secret: string, req: Request): Reply
  {
    match req.run(secret)
    case Threw => Unauthorized
    case Returned(resp) => resp
  }

  /** Once the verifier exists, every later request is checked with the
      secret it was built with, whatever secret that request's own
      environment carries. */
  lemma {:induction false} ReadyUsesItsSecret(secret: string, reqs: seq<Request>)
    ensures var r := ServeAll(Ready(secret), reqs);
      && r.0 == Ready(secret)
      && forall i :: 0 <= i < |reqs| ==> r.1[i] == Verified(secret, reqs[i])
    decreases |reqs|
  {
    if reqs != [] {
      ReadyUsesItsSecret(secret, reqs[1..]);
      var r := ServeAll(Ready(secret), reqs);
      var rest := ServeAll(Ready(secret), reqs[1..]);
      assert r.1 == [Verified(secret, reqs[0])] + rest.1;
      forall i | 0 <= i < |reqs| ensures r.1[i] == Verified(secret, reqs[i]) {
        if i > 0 {
          assert r.1[i] == rest.1[i - 1];
          assert reqs[1..][i - 1] == reqs[i];
        }
      }
    }
  }

  /** Starting unset, the first request whose secret builds fixes the secret
      for itself and for every request after it; the requests before it are
      all refused with 401. */
  lemma {:induction false} FirstSecretIsKept(reqs: seq<Request>, j: nat)
    requires j < |reqs| && reqs[j].builds
    requires forall i :: 0 <= i < j ==> !reqs[i].builds
    ensures var r := ServeAll(Uninit, reqs);
      && r.0 == Ready(reqs[j].envSecret)
      && (forall i :: 0 <= i < j ==> r.1[i] == Unauthorized)
      && (forall i :: j <= i < |reqs| ==> r.1[i] == Verified(reqs[j].envSecret, reqs[i]))
    decreases j
  {
    var r := ServeAll(Uninit, reqs);
    var rest := ServeAll(Auth(Uninit, reqs[0]).0, reqs[1..]);
    assert r.1 == [Auth(Uninit, reqs[0]).1] + rest.1;
    if j == 0 {
      ReadyUsesItsSecret(reqs[0].envSecret, reqs[1..]);
      forall i | 0 <= i < |reqs| ensures r.1[i] == Verified(reqs[0].envSecret, reqs[i]) {
        if i > 0 {
          assert r.1[i] == rest.1[i - 1];
          assert reqs[1..][i - 1] == reqs[i];
        }
      }
    } else {
      FirstSecretIsKept(reqs[1..], j - 1);
      forall i | 1 <= i < |reqs| ensures r.1[i] == rest.1[i - 1] && reqs[1..][i - 1] == reqs[i] {
      }
    }
  }

  // ---------------------------------------------------------------- guards

  /** The three outcomes of a guard: call `next`, answer 403, or throw a
      `TypeError` from reading a property of an absent payload. */
  datatype Verdict = Pass | Forbidden | Crash

  /** `payload.role` read from a claim set: `undefined` when absent. */
  function RoleOf(payload: ClaimSet): Option<ClaimValue>
  {
    if "role" in payload then Some(payload["role"]) else None
  }

  function UserIdOf(payload: ClaimSet): Option<ClaimValue>
  {
    if "userId" in payload then Some(payload["userId"]) else None
  }

  /** `role !== payload.role` is false exactly when the claim is the same
      string. */
  predicate HasRole(payload: ClaimSet, role: string)
  {
    RoleOf(payload) == Some(CStr(role))
  }

  /** `!id` for the path segment: absent or empty. */
  predicate NoId(id: Option<string>)
  {
    id.None? || id.value == ""
  }

  /** JavaScript's `id == v` for a string `id` and a claim value `v` (an
      absent claim is `undefined`). A string meets a number or a boolean by
      converting the string to a number; it never equals `null` or
      `undefined`. */
  predicate LooseEq(id: string, v: Option<ClaimValue>)
  {
    match v
    case None => false
    case Some(CNull) => false
    case Some(CStr(s)) => id == s
    case Some(CNum(n)) => StringToInt(id) == Some(n)
    case Some(CBool(b)) => StringToInt(id) == Some(if b then 1 else 0)
  }

  /** `requireRole(role)`. */
  function RequireRole(role: string, payload: Option<ClaimSet>): (v: Verdict)
    ensures v != Crash
    ensures v == Forbidden <==> payload.None? || RoleOf(payload.value) != Some(CStr(role))
  {
    if payload.None? || !HasRole(payload.value, role) then Forbidden else Pass
  }

  /** `requireRoleOrOwner(role)`: the role test first, then the owner test,
      which reads `payload.userId` even when the payload is absent. */
  function RequireRoleOrOwner(role: string, payload: Option<ClaimSet>, id: Option<string>): (v: Verdict)
    ensures v == Crash <==> payload.None? && !NoId(id)
    ensures payload.Some? && HasRole(payload.value, role) ==> v == Pass
    ensures !(payload.Some? && HasRole(payload.value, role)) ==>
      (v == Pass <==> payload.Some? && !NoId(id) && LooseEq(id.value, UserIdOf(payload.value)))
  {
    if payload.None? || !HasRole(payload.value, role) then
      if NoId(id) then Forbidden
      else if payload.None? then Crash
      else if !LooseEq(id.value, UserIdOf(payload.value)) then Forbidden
      else Pass
    else Pass
  }

  /** `requireOwner()`: never looks at the role. */
  function RequireOwner(payload: Option<ClaimSet>, id: Option<string>): (v: Verdict)
    ensures v == Crash <==> payload.None? && !NoId(id)
    ensures v == Pass <==> payload.Some? && !NoId(id) && LooseEq(id.value, UserIdOf(payload.value))
  {
    if NoId(id) then Forbidden
    else if payload.None? then Crash
    else if !LooseEq(id.value, UserIdOf(payload.value)) then Forbidden
    else Pass
  }

  /** The combined guard passes exactly when one of the two single guards
      would, and fails in the same way as the owner guard otherwise. */
  lemma RoleOrOwnerIsEither(role: string, payload: Option<ClaimSet>, id: Option<string>)
    ensures RequireRoleOrOwner(role, payload, id) == Pass <==>
      RequireRole(role, payload) == Pass || RequireOwner(payload, id) == Pass
    ensures RequireRole(role, payload) != Pass ==>
      RequireRoleOrOwner(role, payload, id) == RequireOwner(payload, id)
  {
  }

  /** The owner guard gives the same verdict whatever role the token claims. */
  lemma OwnerIgnoresRole(payload: ClaimSet, id: Option<string>, role: ClaimValue)
    ensures RequireOwner(Some(payload), id) == RequireOwner(Some(payload["role" := role]), id)
  {
    assert UserIdOf(payload) == UserIdOf(payload["role" := role]);
  }

  /** Role matching is exact: no role stands in for another, "admin" does not
      include "user", and a differently cased name does not match. */
  lemma RoleIsExact(payload: ClaimSet)
    ensures RequireRole("user", Some(payload["role" := CStr("admin")])) == Forbidden
    ensures RequireRole("admin", Some(payload["role" := CStr("Admin")])) == Forbidden
    ensures RequireRole("admin", Some(payload["role" := CStr("admin")])) == Pass
  {
  }

  /** The owner comparison converts the path segment to a number: "05" and
      "+5" name user 5, but a string-valued claim must match exactly. */
  lemma OwnerLooseEqualityExamples(payload: ClaimSet)
    ensures RequireOwner(Some(payload["userId" := CNum(5)]), Some("05")) == Pass
    ensures RequireOwner(Some(payload["userId" := CNum(5)]), Some("+5")) == Pass
    ensures RequireOwner(Some(payload["userId" := CNum(5)]), Some("6")) == Forbidden
    ensures RequireOwner(Some(payload["userId" := CStr("5")]), Some("05")) == Forbidden
    ensures RequireOwner(Some(payload["userId" := CNum(5)]), Some("")) == Forbidden
    ensures RequireOwner(None, Some("5")) == Crash
  {
    assert StringToInt("05") == Some(5) by {
      assert "05"[..1] == "0";
      assert DigitsValue("05") == 5;
    }
    assert StringToInt("+5") == Some(5) by {
      assert "+5"[1..] == "5";
    }
    assert StringToInt("6") == Some(6);
    assert UserIdOf(payload["userId" := CNum(5)]) == Some(CNum(5));
    assert UserIdOf(payload["userId" := CStr("5")]) == Some(CStr("5"));
  }
}

=== FILE: auth_service.dfy ===
/**
 * Token issuing, login and registration (src/service/authService.ts).
 * Password hashing, hash comparison, token signing and the clock are
 * parameters: `hash(password, salt)`, `compare(password, hashed)`,
 * `sign(payload, secret)` and a millisecond clock reading.
 */
module AuthService {
  import opened Wrappers
  import opened JsText
  import opened Claims
  import opened Time
  import AuthMiddleware

  /** A row of the `user` table; `role` defaults to "user" on insert. */
  datatype User = User(
    id: int, name: Option<string>, email: string, password: string,
    imageUrl: Option<string>, active: Option<bool>, role: string)

  /** The `user` table in insertion order, with its auto-increment counter. */
  datatype Users = Users(rows: seq<User>, nextId: int)

  /** The environment: `JWT_SECRET` and `JWT_EXPIRES_IN`. */
  datatype Config = Config(secret: string, expiresIn: string)

  /** What `login` and `registerUser` return. */
  datatype Token = Token(token: string, expiresIn: string)

  /** The ways the service fails: its own two errors, the unique email index
      refusing an insert, and the duration parser's errors. */
  datatype AuthError = UserNotFound | InvalidCredentials | EmailTaken | BadExpiry(cause: ParseError)

  datatype LoginInput = LoginInput(email: string, password: string)
  datatype RegisterInput = RegisterInput(email: string, password: string, name: string)

  // ------------------------------------------------------------ userRepo

  /** `findByEmail`: the first stored user with this email, if any. */
  function FindByEmail(users: Users, email: string): (r: Option<User>)
    ensures r.None? <==> forall i :: 0 <= i < |users.rows| ==> users.rows[i].email != email
    ensures r.Some? ==> r.value in users.rows && r.value.email == email
    decreases |users.rows|
  {
    if users.rows == [] then None
    else if users.rows[0].email == email then Some(users.rows[0])
    else
      var r := FindByEmail(Users(users.rows[1..], users.nextId), email);
      assert forall i :: 1 <= i < |users.rows| ==> users.rows[i] == users.rows[1..][i - 1];
      r
  }

  // ------------------------------------------------------- generateToken

  /** The claim set `generateToken` signs. */
  function Payload(user: User, iat: int, seconds: int): (p: ClaimSet)
    ensures p.Keys == {"userId", "username", "iat", "exp"}
    ensures p["userId"] == CNum(user.id) && p["username"] == CStr(user.email)
    ensures p["iat"] == CNum(iat) && p["exp"] == CNum(iat + seconds)
  {
    map["userId" := CNum(user.id), "username" := CStr(user.email), "iat" := CNum(iat), "exp" := CNum(iat + seconds)]
  }

  /** `generateToken`: parses the configured lifetime, signs the four claims
      and echoes the configured lifetime string. */
  function GenerateToken(user: User, cfg: Config, nowMillis: nat, sign: (ClaimSet, string) -> string)
    : (r: Result<Token, ParseError>)
    ensures r.Err? <==> ParseTimeToSeconds(cfg.expiresIn).Err?
    ensures r.Err? ==> r.error == ParseTimeToSeconds(cfg.expiresIn).error
    ensures r.Ok? ==> r.value.expiresIn == cfg.expiresIn
    ensures r.Ok? ==>
      r.value.token == sign(Payload(user, EpochSeconds(nowMillis), ParseTimeToSeconds(cfg.expiresIn).value), cfg.secret)
  {
    match ParseTimeToSeconds(cfg.expiresIn)
    case Err(e) => Err(e)
    case Ok(seconds) =>
      var iat := EpochSeconds(nowMillis);
      Ok(Token(sign(Payload(user, iat, seconds), cfg.secret), cfg.expiresIn))
  }

  /** The signed claims are what `createJWTPayload` would build from the two
      identity claims with a single clock reading, so their lifetime is
      exactly the configured one. */
  lemma PayloadIsJWTPayload(user: User, expiresIn: string, nowMillis: nat)
    requires ParseTimeToSeconds(expiresIn).Ok?
    ensures var seconds := ParseTimeToSeconds(expiresIn).value;
      var base := map["userId" := CNum(user.id), "username" := CStr(user.email)];
      && CreateJWTPayload(base, expiresIn, nowMillis, nowMillis) == Ok(Payload(user, EpochSeconds(nowMillis), seconds))
      && 1 <= seconds <= MaxSeconds
  {
    var seconds := ParseTimeToSeconds(expiresIn).value;
    var base := map["userId" := CNum(user.id), "username" := CStr(user.email)];
    var c := CreateJWTPayload(base, expiresIn, nowMillis, nowMillis).value;
    var p := Payload(user, EpochSeconds(nowMillis), seconds);
    assert c.Keys == p.Keys;
    assert forall k :: k in c ==> c[k] == p[k];
    assert c == p;
  }

  /** No issued token carries a role, so `requireRole` refuses every one of
      them whatever role it asks for. */
  lemma IssuedTokenNeverHasRole(user: User, iat: int, seconds: int, role: string)
    ensures AuthMiddleware.RequireRole(role, Some(Payload(user, iat, seconds))) == AuthMiddleware.Forbidden
  {
  }

  /** The owner guard accepts an issued token on the path of its own user's
      id, written the way a URL carries it. */
  lemma IssuedTokenOwnsItsId(user: User, iat: int, seconds: int)
    ensures AuthMiddleware.RequireOwner(Some(Payload(user, iat, seconds)), Some(IntToDecimal(user.id))) == AuthMiddleware.Pass
  {
    StringToIntOfDecimal(user.id);
    assert IntToDecimal(user.id) != "" by {
      if user.id < 0 {} else { assert |NatToDecimal(user.id)| > 0; }
    }
  }

  // --------------------------------------------------------------- login

  function Lift(r: Result<Token, ParseError>): (l: Result<Token, AuthError>)
    ensures r.Ok? ==> l == Ok(r.value)
    ensures r.Err? ==> l == Err(BadExpiry(r.error))
  {
    match r
    case Ok(t) => Ok(t)
    case Err(e) => Err(BadExpiry(e))
  }

  /** `login`: look the user up, check the password, then issue a token. */
  function Login(users: Users, req: LoginInput, cfg: Config, nowMillis: nat,
                 compare: (string, string) -> bool, sign: (ClaimSet, string) -> string)
    : (r: Result<Token, AuthError>)
    ensures FindByEmail(users, req.email).None? ==> r == Err(UserNotFound)
    ensures FindByEmail(users, req.email).Some? ==> var u := FindByEmail(users, req.email).value;
      && (!compare(req.password, u.password) ==> r == Err(InvalidCredentials))
      && (compare(req.password, u.password) ==> r == Lift(GenerateToken(u, cfg, nowMillis, sign)))
    ensures r.Ok? ==>
      exists i :: 0 <= i < |users.rows| && users.rows[i].email == req.email && compare(req.password, users.rows[i].password)
  {
    match FindByEmail(users, req.email)
    case None => Err(UserNotFound)
    case Some(u) =>
      if !compare(req.password, u.password) then Err(InvalidCredentials)
      else Lift(GenerateToken(u, cfg, nowMillis, sign))
  }

  /** An unknown email is refused before any password is compared or any
      lifetime parsed: the outcome does not depend on the comparison, the
      configuration or the clock. */
  lemma LoginUnknownEmail(users: Users, req: LoginInput, cfg1: Config, cfg2: Config, now1: nat, now2: nat,
                          compare1: (string, string) -> bool, compare2: (string, string) -> bool,
                          sign: (ClaimSet, string) -> string)
    requires forall i :: 0 <= i < |users.rows| ==> users.rows[i].email != req.email
    ensures Login(users, req, cfg1, now1, compare1, sign) == Err(UserNotFound)
    ensures Login(users, req, cfg1, now1, compare1, sign) == Login(users, req, cfg2, now2, compare2, sign)
  {
  }

  /** A wrong password is reported as such even when the lifetime setting is
      invalid: the credentials are checked before the token is built. */
  lemma LoginChecksPasswordFirst(users: Users, req: LoginInput, cfg: Config, nowMillis: nat,
                                 compare: (string, string) -> bool, sign: (ClaimSet, string) -> string)
    requires FindByEmail(users, req.email).Some?
    requires !compare(req.password, FindByEmail(users, req.email).value.password)
    ensures Login(users, req, cfg, nowMillis, compare, sign) == Err(InvalidCredentials)
  {
  }

  // -------------------------------------------------------- registerUser

  /** `registerUser`: hash the password, insert the user, issue a token.
      The returned table is the state after the call; an insert refused by
      the unique email index leaves it unchanged, and a token failure comes
      after the insert and so keeps the new row. */
  function RegisterUser(users: Users, req: RegisterInput, cfg: Config, salt: string, nowMillis: nat,
                        hash: (string, string) -> string, sign: (ClaimSet, string) -> string)
    : (r: (Users, Result<Token, AuthError>))
    ensures FindByEmail(users, req.email).Some? ==> r == (users, Err(EmailTaken))
    ensures FindByEmail(users, req.email).None? ==>
      var u := User(users.nextId, Some(req.name), req.email, hash(req.password, salt), None, None, "user");
      && r.0 == Users(users.rows + [u], users.nextId + 1)
      && r.1 == Lift(GenerateToken(u, cfg, nowMillis, sign))
  {
    var hashed := hash(req.password, salt);
    if FindByEmail(users, req.email).Some? then (users, Err(EmailTaken))
    else
      var u := User(users.nextId, Some(req.name), req.email, hashed, None, None, "user");
      (Users(users.rows + [u], users.nextId + 1), Lift(GenerateToken(u, cfg, nowMillis, sign)))
  }

  /** After a successful registration the new email logs in with the same
      password, provided the comparison accepts what the hash produced. */
  lemma RegisterThenLogin(users: Users, req: RegisterInput, cfg: Config, salt: string, now1: nat, now2: nat,
                          hash: (string, string) -> string, compare: (string, string) -> bool,
                          sign: (ClaimSet, string) -> string)
    requires forall i :: 0 <= i < |users.rows| ==> users.rows[i].email != req.email
    requires compare(req.password, hash(req.password, salt))
    requires ParseTimeToSeconds(cfg.expiresIn).Ok?
    ensures var (users', reg) := RegisterUser(users, req, cfg, salt, now1, hash, sign);
      && reg.Ok?
      && Login(users', LoginInput(req.email, req.password), cfg, now2, compare, sign).Ok?
  {
    var (users', reg) := RegisterUser(users, req, cfg, salt, now1, hash, sign);
    var u := User(users.nextId, Some(req.name), req.email, hash(req.password, salt), None, None, "user");
    assert users'.rows == users.rows + [u];
    FirstMatchAfterAppend(users, u);
  }

  /** Appending a user with a new email makes that user the one found. */
  lemma {:induction false} FirstMatchAfterAppend(users: Users, u: User)
    requires forall i :: 0 <= i < |users.rows| ==> users.rows[i].email != u.email
    ensures FindByEmail(Users(users.rows + [u], users.nextId + 1), u.email) == Some(u)
    decreases |users.rows|
  {
    var t := Users(users.rows + [u], users.nextId + 1);
    if users.rows != [] {
      var tail := Users(users.rows[1..], users.nextId);
      FirstMatchAfterAppend(tail, u);
      assert t.rows[1..] == tail.rows + [u];
    }
  }

  /** The stored password is the hash of the submitted one, and an invalid
      lifetime setting still leaves the new user stored. */
  lemma RegisterStoresHashEvenOnBadExpiry(users: Users, req: RegisterInput, cfg: Config, salt: string, nowMillis: nat,
                                          hash: (string, string) -> string, sign: (ClaimSet, string) -> string)
    requires forall i :: 0 <= i < |users.rows| ==> users.rows[i].email != req.email
    requires ParseTimeToSeconds(cfg.expiresIn).Err?
    ensures var (users', reg) := RegisterUser(users, req, cfg, salt, nowMillis, hash, sign);
      && reg == Err(BadExpiry(ParseTimeToSeconds(cfg.expiresIn).error))
      && |users'.rows| == |users.rows| + 1
      && users'.rows[|users.rows|].password == hash(req.password, salt)
      && users'.rows[|users.rows|].email == req.email
  {
  }
}

=== FILE: claims.dfy ===
/** JWT claim sets as the application handles them: a JSON object whose
    values are numbers, strings, booleans or null. A missing key is
    JavaScript's `undefined`. */
module Claims {

  datatype ClaimValue = CNum(n: int) | CStr(s: string) | CBool(b: bool) | CNull

  type ClaimSet = map<string, ClaimValue>
}

=== FILE: format.dfy ===
/**
 * `vnNormalize` (src/utils/format.ts): the accent-insensitive search key.
 * Canonical decomposition (NFD, Unicode Standard Annex #15) and the
 * lower-casing of non-ASCII characters are parameters; every later step is
 * modelled character by character.
 */
module Format {
  import opened Wrappers
  import opened JsText

  /** A combining diacritical mark, U+0300 to U+036F. */
  predicate IsMark(c: char) { 0x300 <= c as int <= 0x36F }

  predicate IsAsciiUpper(c: char) { 'A' <= c <= 'Z' }
  predicate IsAsciiLower(c: char) { 'a' <= c <= 'z' }

  /** The class `[a-z0-9]`. */
  predicate IsKeyChar(c: char) { IsAsciiLower(c) || IsDigit(c) }

  /** Characters the result may contain: `[a-z0-9 ]`. */
  predicate IsOutChar(c: char) { IsKeyChar(c) || c == ' ' }

  /** A well-formed search key: only `[a-z0-9 ]`, no space at either end
      and never two spaces in a row. */
  predicate Clean(s: string)
  {
    && (forall i :: 0 <= i < |s| ==> IsOutChar(s[i]))
    && (|s| > 0 ==> s[0] != ' ' && s[|s| - 1] != ' ')
    && (forall i :: 0 <= i < |s| - 1 ==> !(s[i] == ' ' && s[i + 1] == ' '))
  }

  // ---------------------------------------------------------------- steps

  /** `.replace(/[\u0300-\u036f]/g, '')`. */
  function StripMarks(s: string): (r: string)
    ensures |r| <= |s|
    ensures forall i :: 0 <= i < |r| ==> !IsMark(r[i]) && r[i] in s
    ensures (forall i :: 0 <= i < |s| ==> !IsMark(s[i])) ==> r == s
    decreases |s|
  {
    if s == [] then []
    else
      var rest := StripMarks(s[1..]);
      assert forall c :: c in s[1..] ==> c in s;
      if IsMark(s[0]) then rest else [s[0]] + rest
  }

  /** Mark removal keeps everything else in order: it works piecewise on a
      concatenation, drops a single mark and keeps any other character. */
  lemma {:induction false} StripMarksAppend(a: string, b: string)
    ensures StripMarks(a + b) == StripMarks(a) + StripMarks(b)
    decreases |a|
  {
    if a == [] {
      assert a + b == b;
    } else {
      assert (a + b)[0] == a[0] && (a + b)[1..] == a[1..] + b;
      StripMarksAppend(a[1..], b);
    }
  }

  lemma StripMarksOfChar(c: char)
    ensures StripMarks([c]) == if IsMark(c) then [] else [c]
  {
    assert [c][1..] == [];
  }

  /** `.replace(/đ/g, 'd').replace(/Đ/g, 'd')`. */
  function DropStroke(c: char): (d: char)
    ensures c == 'đ' || c == 'Đ' ==> d == 'd'
    ensures c != 'đ' && c != 'Đ' ==> d == c
    ensures d != 'đ' && d != 'Đ'
  {
    if c == 'đ' || c == 'Đ' then 'd' else c
  }

  function ReplaceStrokes(s: string): (r: string)
    ensures |r| == |s|
    ensures forall i :: 0 <= i < |s| ==> r[i] == DropStroke(s[i])
  {
    seq(|s|, i requires 0 <= i < |s| => DropStroke(s[i]))
  }

  /** `toLowerCase` for one character: ASCII letters are lowered, other
      ASCII characters are kept, and any other character becomes
      `lowerOther(c)` (which may be longer than one character). */
  function LowerChar(c: char, lowerOther: char -> string): (r: string)
    ensures IsAsciiUpper(c) ==> r == [(c as int + 32) as char]
    ensures !IsAsciiUpper(c) && c as int < 128 ==> r == [c]
  {
    if IsAsciiUpper(c) then [(c as int + 32) as char]
    else if c as int < 128 then [c]
    else lowerOther(c)
  }

  function LowerCase(s: string, lowerOther: char -> string): (r: string)
    ensures (forall i :: 0 <= i < |s| ==> s[i] as int < 128) ==> |r| == |s|
    ensures (forall i :: 0 <= i < |s| ==> s[i] as int < 128) ==>
      forall i :: 0 <= i < |s| ==> r[i] == LowerChar(s[i], lowerOther)[0]
    decreases |s|
  {
    if s == [] then [] else LowerChar(s[0], lowerOther) + LowerCase(s[1..], lowerOther)
  }

  /** `.replace(/[^a-z0-9\s]/g, ' ')`. */
  function Sanitize(s: string): (r: string)
    ensures |r| == |s|
    ensures forall i :: 0 <= i < |s| ==> (IsKeyChar(s[i]) || IsJsSpace(s[i]) ==> r[i] == s[i])
    ensures forall i :: 0 <= i < |s| ==> (!IsKeyChar(s[i]) && !IsJsSpace(s[i]) ==> r[i] == ' ')
  {
    seq(|s|, i requires 0 <= i < |s| => if IsKeyChar(s[i]) || IsJsSpace(s[i]) then s[i] else ' ')
  }

  /** `trimStart`: drops the leading white space. */
  function TrimStart(s: string): (r: string)
    ensures |r| <= |s| && r == s[|s| - |r|..]
    ensures r != [] ==> !IsJsSpace(r[0])
    decreases |s|
  {
    if s != [] && IsJsSpace(s[0]) then TrimStart(s[1..]) else s
  }

  /** What `TrimStart` drops is white space. */
  lemma {:induction false} TrimStartDropsSpace(s: string)
    ensures forall i :: 0 <= i < |s| - |TrimStart(s)| ==> IsJsSpace(s[i])
    decreases |s|
  {
    if s != [] && IsJsSpace(s[0]) {
      TrimStartDropsSpace(s[1..]);
      assert forall i :: 1 <= i < |s| ==> s[i] == s[1..][i - 1];
    }
  }

  /** `trimEnd`: drops the trailing white space. */
  function TrimEnd(s: string): (r: string)
    ensures |r| <= |s| && r == s[..|r|]
    ensures r != [] ==> !IsJsSpace(r[|r| - 1])
    decreases |s|
  {
    if s != [] && IsJsSpace(s[|s| - 1]) then TrimEnd(s[..|s| - 1]) else s
  }

  /** What `TrimEnd` drops is white space. */
  lemma {:induction false} TrimEndDropsSpace(s: string)
    ensures forall i :: |TrimEnd(s)| <= i < |s| ==> IsJsSpace(s[i])
    decreases |s|
  {
    if s != [] && IsJsSpace(s[|s| - 1]) {
      TrimEndDropsSpace(s[..|s| - 1]);
    }
  }

  /** `.trim()`. */
  function Trim(s: string): (r: string)
  {
    TrimEnd(TrimStart(s))
  }

  /** A sanitised string has only key characters and white space. */
  predicate KeyOrSpace(s: string)
  {
    forall i :: 0 <= i < |s| ==> IsKeyChar(s[i]) || IsJsSpace(s[i])
  }

  /** `.replace(/\s+/g, ' ')`: every maximal run of white space becomes one
      space. */
  function Collapse(s: string): (r: string)
    ensures (|r| == 0) <==> (|s| == 0)
    ensures |r| > 0 ==> (r[0] == ' ' <==> IsJsSpace(s[0]))
    ensures KeyOrSpace(s) ==> forall i :: 0 <= i < |r| ==> IsOutChar(r[i])
    ensures forall i :: 0 <= i < |r| - 1 ==> !(r[i] == ' ' && r[i + 1] == ' ')
    decreases |s|
  {
    if s == [] then []
    else if IsJsSpace(s[0]) then
      var tail := TrimStart(s[1..]);
      assert KeyOrSpace(s) ==> KeyOrSpace(tail) by {
        assert forall i :: 0 <= i < |tail| ==> tail[i] == s[|s| - |tail| + i];
      }
      [' '] + Collapse(tail)
    else
      [s[0]] + Collapse(s[1..])
  }

  /** The characters of `s` that are not white space, in order. */
  function NonSpace(s: string): string
    decreases |s|
  {
    if s == [] then [] else (if IsJsSpace(s[0]) then [] else [s[0]]) + NonSpace(s[1..])
  }

  /** Skipping leading white space keeps the other characters. */
  lemma {:induction false} NonSpaceOfTrimStart(s: string)
    ensures NonSpace(TrimStart(s)) == NonSpace(s)
    decreases |s|
  {
    if s != [] && IsJsSpace(s[0]) {
      NonSpaceOfTrimStart(s[1..]);
    }
  }

  /** Collapsing keeps every character that is not white space, in order. */
  lemma {:induction false} CollapseKeepsNonSpace(s: string)
    ensures NonSpace(Collapse(s)) == NonSpace(s)
    decreases |s|
  {
    if s != [] {
      if IsJsSpace(s[0]) {
        var tail := TrimStart(s[1..]);
        CollapseKeepsNonSpace(tail);
        NonSpaceOfTrimStart(s[1..]);
        assert IsJsSpace(' ');
        assert Collapse(s) == [' '] + Collapse(tail);
        assert ([' '] + Collapse(tail))[1..] == Collapse(tail);
      } else {
        CollapseKeepsNonSpace(s[1..]);
        assert ([s[0]] + Collapse(s[1..]))[1..] == Collapse(s[1..]);
      }
    }
  }

  /** Leading white space followed by text that does not start with white
      space trims to that text. */
  lemma {:induction false} TrimStartOfRun(w: string, s: string)
    requires forall i :: 0 <= i < |w| ==> IsJsSpace(w[i])
    requires s == [] || !IsJsSpace(s[0])
    ensures TrimStart(w + s) == s
    decreases |w|
  {
    if w == [] {
      assert w + s == s;
    } else {
      assert (w + s)[0] == w[0] && (w + s)[1..] == w[1..] + s;
      TrimStartOfRun(w[1..], s);
    }
  }

  /** Each maximal run of white space becomes exactly one space, and a
      character that is not white space is kept: together these fix
      `Collapse` on every string, read run by run. */
  lemma CollapseRun(w: string, s: string)
    requires w != [] && forall i :: 0 <= i < |w| ==> IsJsSpace(w[i])
    requires s == [] || !IsJsSpace(s[0])
    ensures Collapse(w + s) == [' '] + Collapse(s)
  {
    var x := w + s;
    assert x[0] == w[0] && x[1..] == w[1..] + s;
    assert IsJsSpace(x[0]);
    forall i | 0 <= i < |w[1..]|
      ensures IsJsSpace(w[1..][i])
    {
      assert w[1..][i] == w[i + 1];
    }
    TrimStartOfRun(w[1..], s);
    assert Collapse(x) == [' '] + Collapse(TrimStart(x[1..]));
  }

  lemma CollapseKeepsChar(c: char, s: string)
    requires !IsJsSpace(c)
    ensures Collapse([c] + s) == [c] + Collapse(s)
  {
    assert ([c] + s)[0] == c && ([c] + s)[1..] == s;
  }

  // ------------------------------------------------------------- the whole

  /** `vnNormalize`: `null` for a missing or empty string, otherwise the
      search key. */
  function VnNormalize(str: Option<string>, nfd: string -> string, lowerOther: char -> string): (r: Option<string>)
    ensures r.None? <==> str.None? || str.value == ""
  {
    if str.None? || str.value == "" then None
    else Some(Trim(Collapse(Sanitize(LowerCase(ReplaceStrokes(StripMarks(nfd(str.value))), lowerOther)))))
  }

  /** Collapsing a sanitised string leaves only key characters and single
      spaces. */
  lemma CollapseOfSanitized(s: string)
    requires KeyOrSpace(s)
    ensures forall i :: 0 <= i < |Collapse(s)| ==> IsOutChar(Collapse(s)[i])
  {
  }

  /** Trimming a string without double spaces gives a clean key when all its
      characters are key characters or spaces. */
  lemma TrimOfCollapsed(s: string)
    requires forall i :: 0 <= i < |s| ==> IsOutChar(s[i])
    requires forall i :: 0 <= i < |s| - 1 ==> !(s[i] == ' ' && s[i + 1] == ' ')
    ensures Clean(Trim(s))
  {
    var r := Trim(s);
    var off := TrimIsSlice(s);
    TrimmedEnds(s);
    assert IsJsSpace(' ');
    CleanSlice(s, r, off);
  }

  /** Neither end of a trimmed string is white space. */
  lemma TrimmedEnds(s: string)
    ensures |Trim(s)| > 0 ==> !IsJsSpace(Trim(s)[0]) && !IsJsSpace(Trim(s)[|Trim(s)| - 1])
  {
    var a := TrimStart(s);
    var r := TrimEnd(a);
    if |r| > 0 {
      assert r[0] == a[0];
    }
  }

  /** Trimming cuts a slice out of the string. */
  lemma TrimIsSlice(s: string) returns (off: nat)
    ensures off + |Trim(s)| <= |s| && Trim(s) == s[off..off + |Trim(s)|]
  {
    var a := TrimStart(s);
    off := |s| - |a|;
    assert a == s[off..];
  }

  /** A slice of such a string that does not start or end with a space is
      a clean key. */
  lemma CleanSlice(s: string, r: string, lo: nat)
    requires lo + |r| <= |s| && r == s[lo..lo + |r|]
    requires forall i :: 0 <= i < |s| ==> IsOutChar(s[i])
    requires forall i :: 0 <= i < |s| - 1 ==> !(s[i] == ' ' && s[i + 1] == ' ')
    requires |r| > 0 ==> r[0] != ' ' && r[|r| - 1] != ' '
    ensures Clean(r)
  {
    assert forall i :: 0 <= i < |r| ==> r[i] == s[lo + i];
    forall i | 0 <= i < |r| - 1 ensures !(r[i] == ' ' && r[i + 1] == ' ') {
      assert r[i] == s[lo + i] && r[i + 1] == s[lo + i + 1];
    }
  }

  /** Key characters are not white space. */
  lemma KeyCharIsNotSpace(c: char)
    requires IsKeyChar(c)
    ensures !IsJsSpace(c)
  {
  }

  /** Trimming leaves a string alone when both ends are key characters. */
  lemma TrimOfUnpadded(s: string)
    requires s != [] && IsKeyChar(s[0]) && IsKeyChar(s[|s| - 1])
    ensures Trim(s) == s
  {
    KeyCharIsNotSpace(s[0]);
    KeyCharIsNotSpace(s[|s| - 1]);
    assert TrimStart(s) == s;
  }

  /** Every result is a clean key. */
  lemma NormalizedIsClean(str: Option<string>, nfd: string -> string, lowerOther: char -> string)
    requires VnNormalize(str, nfd, lowerOther).Some?
    ensures Clean(VnNormalize(str, nfd, lowerOther).value)
  {
    var l := LowerCase(ReplaceStrokes(StripMarks(nfd(str.value))), lowerOther);
    var s := Sanitize(l);
    assert KeyOrSpace(s);
    CollapseOfSanitized(s);
    TrimOfCollapsed(Collapse(s));
  }

  // ------------------------------------------------------ identity lemmas

  lemma {:induction false} LowerCaseOfKey(s: string, lowerOther: char -> string)
    requires forall i :: 0 <= i < |s| ==> IsOutChar(s[i])
    ensures LowerCase(s, lowerOther) == s
    decreases |s|
  {
    if s != [] {
      LowerCaseOfKey(s[1..], lowerOther);
      assert LowerChar(s[0], lowerOther) == [s[0]];
    }
  }

  lemma {:induction false} CollapseOfClean(s: string)
    requires forall i :: 0 <= i < |s| ==> IsOutChar(s[i])
    requires forall i :: 0 <= i < |s| - 1 ==> !(s[i] == ' ' && s[i + 1] == ' ')
    ensures Collapse(s) == s
    decreases |s|
  {
    if s != [] {
      CollapseOfClean(s[1..]);
      if IsJsSpace(s[0]) {
        assert s[0] == ' ';
        assert TrimStart(s[1..]) == s[1..] by {
          if |s| > 1 { assert s[1] != ' '; assert !IsJsSpace(s[1]); }
        }
      }
    }
  }

  /** A clean key normalises to itself, given that decomposition leaves it
      alone (it is plain ASCII, which NFD never changes). Only the empty key
      escapes this: it normalises to `null`. */
  lemma Idempotent(r: string, nfd: string -> string, lowerOther: char -> string)
    requires Clean(r) && r != "" && nfd(r) == r
    ensures VnNormalize(Some(r), nfd, lowerOther) == Some(r)
  {
    KeyStringIsFixed(r);
    LaterStepsKeepClean(r, lowerOther);
  }

  /** The steps after the stroke replacement leave a non-empty clean key
      alone. */
  lemma LaterStepsKeepClean(r: string, lowerOther: char -> string)
    requires Clean(r) && r != ""
    ensures Trim(Collapse(Sanitize(LowerCase(r, lowerOther)))) == r
  {
    LowerCaseOfKey(r, lowerOther);
    KeyStepsKeepClean(r);
  }

  /** Sanitising, collapsing and trimming leave a non-empty clean key alone. */
  lemma KeyStepsKeepClean(r: string)
    requires Clean(r) && r != ""
    ensures Trim(Collapse(Sanitize(r))) == r
  {
    KeyStringIsFixed(r);
    CollapseOfClean(r);
    TrimOfUnpadded(r);
  }

  /** The character-wise steps leave a string of `[a-z0-9 ]` alone. */
  lemma KeyStringIsFixed(s: string)
    requires forall i :: 0 <= i < |s| ==> IsOutChar(s[i])
    ensures StripMarks(s) == s && ReplaceStrokes(s) == s && Sanitize(s) == s
  {
    assert forall i :: 0 <= i < |s| ==> !IsMark(s[i]);
    assert ReplaceStrokes(s) == s;
    forall i | 0 <= i < |s| ensures Sanitize(s)[i] == s[i] {
      assert IsKeyChar(s[i]) || IsJsSpace(s[i]);
    }
  }

  /** ASCII characters that are not upper-case letters are kept by
      `toLowerCase`. */
  lemma {:induction false} LowerCaseOfPlainAscii(s: string, lowerOther: char -> string)
    requires forall i :: 0 <= i < |s| ==> s[i] as int < 128 && !IsAsciiUpper(s[i])
    ensures LowerCase(s, lowerOther) == s
    decreases |s|
  {
    if s != [] {
      LowerCaseOfPlainAscii(s[1..], lowerOther);
      assert LowerChar(s[0], lowerOther) == [s[0]];
    }
  }

  /** Trimming the start of an all-white-space string leaves nothing. */
  lemma TrimStartOfSpaces(s: string)
    requires forall i :: 0 <= i < |s| ==> IsJsSpace(s[i])
    ensures TrimStart(s) == []
  {
  }

  /** A non-empty run of white space collapses to one space, which trimming
      removes. */
  lemma SpacesGiveEmpty(s: string)
    requires s != [] && forall i :: 0 <= i < |s| ==> IsJsSpace(s[i])
    ensures Collapse(s) == " " && Trim(Collapse(s)) == ""
  {
    TrimStartOfSpaces(s[1..]);
    assert Collapse([]) == [];
    TrimStartOfSpaces(" ");
  }

  /** The character-wise steps on ASCII text without letters or digits: every
      character ends up as white space. */
  lemma NoKeyCharsSteps(s: string, lowerOther: char -> string)
    requires forall i :: 0 <= i < |s| ==> s[i] as int < 128 && !IsAsciiAlnum(s[i])
    ensures var t := Sanitize(LowerCase(ReplaceStrokes(StripMarks(s)), lowerOther));
      |t| == |s| && forall i :: 0 <= i < |t| ==> IsJsSpace(t[i])
  {
    assert forall i :: 0 <= i < |s| ==> !IsMark(s[i]);
    assert ReplaceStrokes(s) == s;
    LowerCaseOfPlainAscii(s, lowerOther);
  }

  /** Text without a single ASCII letter or digit, such as "!!!", gives the
      empty key rather than `null`. */
  lemma NoKeyCharsGiveEmptyKey(s: string, nfd: string -> string, lowerOther: char -> string)
    requires s != "" && nfd(s) == s
    requires forall i :: 0 <= i < |s| ==> s[i] as int < 128 && !IsAsciiAlnum(s[i])
    ensures VnNormalize(Some(s), nfd, lowerOther) == Some("")
  {
    NoKeyCharsSteps(s, lowerOther);
    SpacesGiveEmpty(Sanitize(LowerCase(ReplaceStrokes(StripMarks(s)), lowerOther)));
  }

  /** Punctuation alone gives the empty key, not `null`, and the empty key
      normalises to `null`. */
  lemma PunctuationGivesEmptyKey(nfd: string -> string, lowerOther: char -> string)
    requires nfd("!!!") == "!!!"
    ensures VnNormalize(Some("!!!"), nfd, lowerOther) == Some("")
    ensures VnNormalize(Some(""), nfd, lowerOther) == None
    ensures VnNormalize(None, nfd, lowerOther) == None
  {
    NoKeyCharsGiveEmptyKey("!!!", nfd, lowerOther);
  }

  /** The first two steps on "Đa" followed by U+0300. */
  lemma AccentSteps()
    ensures ReplaceStrokes(StripMarks("\U{110}a\U{300}")) == "da"
  {
    var s := "\U{110}a\U{300}";
    assert StripMarks(s[2..]) == [];
    assert StripMarks(s[1..]) == "a";
    assert StripMarks(s) == "\U{110}a";
  }

  /** Accents are dropped after decomposition and the stroked d is plain:
      "Đà" (U+0110 U+00E0) decomposes to U+0110, "a" and the combining grave
      accent U+0300, and normalises to "da". */
  lemma AccentsAndStrokeDropped(nfd: string -> string, lowerOther: char -> string)
    requires nfd("\U{110}\U{E0}") == "\U{110}a\U{300}"
    ensures VnNormalize(Some("\U{110}\U{E0}"), nfd, lowerOther) == Some("da")
  {
    AccentSteps();
    assert Clean("da");
    CleanAfterStrokes("\U{110}\U{E0}", nfd, lowerOther);
  }

  /** When removing marks and strokes already gives a clean key, the later
      steps keep it. */
  lemma CleanAfterStrokes(s: string, nfd: string -> string, lowerOther: char -> string)
    requires s != ""
    requires var r := ReplaceStrokes(StripMarks(nfd(s))); r != "" && Clean(r)
    ensures VnNormalize(Some(s), nfd, lowerOther) == Some(ReplaceStrokes(StripMarks(nfd(s))))
  {
    LaterStepsKeepClean(ReplaceStrokes(StripMarks(nfd(s))), lowerOther);
  }

  /** Plain ASCII letters and digits are kept in order, with upper-case
      letters lowered. */
  function AsciiLower(c: char): (d: char)
    ensures IsAsciiUpper(c) ==> IsAsciiLower(d) && d as int == c as int + 32
    ensures !IsAsciiUpper(c) ==> d == c
  {
    if IsAsciiUpper(c) then (c as int + 32) as char else c
  }

  predicate IsAsciiAlnum(c: char) { IsAsciiUpper(c) || IsAsciiLower(c) || IsDigit(c) }

  lemma {:induction false} LowerCaseOfAlnum(s: string, lowerOther: char -> string)
    requires forall i :: 0 <= i < |s| ==> IsAsciiAlnum(s[i])
    ensures LowerCase(s, lowerOther) == seq(|s|, i requires 0 <= i < |s| => AsciiLower(s[i]))
    decreases |s|
  {
    if s != [] {
      LowerCaseOfAlnum(s[1..], lowerOther);
      assert LowerChar(s[0], lowerOther) == [AsciiLower(s[0])];
    }
  }

  lemma AsciiWordIsLowered(s: string, nfd: string -> string, lowerOther: char -> string)
    requires s != "" && nfd(s) == s
    requires forall i :: 0 <= i < |s| ==> IsAsciiAlnum(s[i])
    ensures VnNormalize(Some(s), nfd, lowerOther) == Some(seq(|s|, i requires 0 <= i < |s| => AsciiLower(s[i])))
  {
    var low := seq(|s|, i requires 0 <= i < |s| => AsciiLower(s[i]));
    AlnumIsUnmarked(s);
    LowerCaseOfAlnum(s, lowerOther);
    LoweredWordIsClean(s);
    KeyStepsKeepClean(low);
  }

  /** Letters and digits carry no mark and no stroke. */
  lemma AlnumIsUnmarked(s: string)
    requires forall i :: 0 <= i < |s| ==> IsAsciiAlnum(s[i])
    ensures ReplaceStrokes(StripMarks(s)) == s
  {
    assert forall i :: 0 <= i < |s| ==> !IsMark(s[i]);
    assert StripMarks(s) == s;
  }

  /** Lowered letters and digits form a clean key. */
  lemma LoweredWordIsClean(s: string)
    requires forall i :: 0 <= i < |s| ==> IsAsciiAlnum(s[i])
    ensures Clean(seq(|s|, i requires 0 <= i < |s| => AsciiLower(s[i])))
  {
    var low := seq(|s|, i requires 0 <= i < |s| => AsciiLower(s[i]));
    assert forall i :: 0 <= i < |low| ==> IsKeyChar(low[i]);
  }
}

=== FILE: js_text.dfy ===
/**
 * Character-level facts of JavaScript used by several modules: ASCII digits,
 * the decimal rendering of integers, `parseInt(s, 10)` on digit strings, the
 * numeric conversion a loose comparison applies to a string, and the `\s`
 * character class.
 */
module JsText {
  import opened Wrappers

  predicate IsDigit(c: char) { '0' <= c <= '9' }

  predicate IsDigits(s: string) { forall i :: 0 <= i < |s| ==> IsDigit(s[i]) }

  function DigitOf(c: char): nat
    requires IsDigit(c)
  {
    c as nat - '0' as nat
  }

  function DigitChar(d: nat): (c: char)
    requires d < 10
    ensures IsDigit(c) && DigitOf(c) == d
  {
    ('0' as nat + d) as char
  }

  /** The value of a string of decimal digits, most significant first
      (`parseInt(s, 10)` on such a string, leading zeros allowed). */
  function DigitsValue(s: string): nat
    requires IsDigits(s)
  {
    if s == [] then 0 else 10 * DigitsValue(s[..|s| - 1]) + DigitOf(s[|s| - 1])
  }

  /** Appending one digit shifts the value by one decimal place. */
  lemma DigitsValueSnoc(s: string, c: char)
    requires IsDigits(s) && IsDigit(c)
    ensures IsDigits(s + [c])
    ensures DigitsValue(s + [c]) == 10 * DigitsValue(s) + DigitOf(c)
  {
    assert (s + [c])[..|s + [c]| - 1] == s;
  }

  /** Leading zeros do not change the value. */
  lemma {:induction false} DigitsValueLeadingZero(s: string)
    requires IsDigits(s)
    ensures IsDigits(['0'] + s) && DigitsValue(['0'] + s) == DigitsValue(s)
  {
    if s == [] {
    } else {
      var init := s[..|s| - 1];
      DigitsValueLeadingZero(init);
      assert ['0'] + s == (['0'] + init) + [s[|s| - 1]];
      DigitsValueSnoc(['0'] + init, s[|s| - 1]);
    }
  }

  /** The shortest decimal rendering of a natural number, as JavaScript's
      `String(n)` and template literals produce it. */
  function NatToDecimal(n: nat): (s: string)
    ensures |s| > 0 && IsDigits(s)
    ensures DigitsValue(s) == n
    ensures |s| > 1 ==> s[0] != '0'
  {
    if n < 10 then [DigitChar(n)]
    else
      var prefix := NatToDecimal(n / 10);
      DigitsValueSnoc(prefix, DigitChar(n % 10));
      prefix + [DigitChar(n % 10)]
  }

  /** The decimal rendering of an integer, with a leading minus sign when negative. */
  function IntToDecimal(n: int): string
  {
    if n < 0 then ['-'] + NatToDecimal(-n) else NatToDecimal(n)
  }

  /** The integer a string denotes under JavaScript's string-to-number
      conversion, for strings made of an optional sign and one or more ASCII
      digits; `None` for every other string (see README for the forms this
      leaves out). */
  function StringToInt(s: string): Option<int>
  {
    if |s| > 0 && IsDigits(s) then Some(DigitsValue(s) as int)
    else if |s| > 1 && s[0] == '+' && IsDigits(s[1..]) then Some(DigitsValue(s[1..]) as int)
    else if |s| > 1 && s[0] == '-' && IsDigits(s[1..]) then Some(-(DigitsValue(s[1..]) as int))
    else None
  }

  /** Reading back a rendered integer gives the integer. */
  lemma StringToIntOfDecimal(n: int)
    ensures StringToInt(IntToDecimal(n)) == Some(n)
  {
    if n < 0 {
      var d := NatToDecimal(-n);
      assert IntToDecimal(n)[1..] == d;
      assert !IsDigit(IntToDecimal(n)[0]);
    }
  }

  /** JavaScript white space and line terminators: the `\s` class of regular
      expressions and the characters `String.prototype.trim` removes. */
  predicate IsJsSpace(c: char)
  {
    if c as int < 0xA0 then c == ' ' || ('\t' <= c <= '\r') else IsWideSpace(c)
  }

  /** The white-space characters at or above U+00A0. */
  predicate IsWideSpace(c: char)
  {
    var k := c as int;
    k == 0xA0 || k == 0x1680 || (0x2000 <= k <= 0x200A)
    || k == 0x2028 || k == 0x2029 || k == 0x202F || k == 0x205F
    || k == 0x3000 || k == 0xFEFF
  }
}

=== FILE: response.dfy ===
/**
 * The JSON envelopes of src/utils/response.ts.
 */
module Response {
  import opened Wrappers

  datatype SuccessResp<T> = SuccessResp(code: int, data: T)

  datatype PaginatedResp<T, M> = PaginatedResp(code: int, data: T, meta: M)

  datatype ErrorResp = ErrorResp(code: int, message: string)

  /** `Response.success`. */
  function Success<T>(data: T): (r: SuccessResp<T>)
    ensures r.code == 200 && r.data == data
  {
    SuccessResp(200, data)
  }

  /** `Response.successWithPage`. */
  function SuccessWithPage<T, M>(data: T, meta: M): (r: PaginatedResp<T, M>)
    ensures r.code == 200 && r.data == data && r.meta == meta
  {
    PaginatedResp(200, data, meta)
  }

  /** `Response.error`: an `undefined` code falls back to 500 (a default
      parameter value); the message is carried as given. */
  function Error(code: Option<int>, message: string): (r: ErrorResp)
    ensures r.message == message
    ensures code.None? ==> r.code == 500
    ensures code.Some? ==> r.code == code.value
  {
    ErrorResp(if code.Some? then code.value else 500, message)
  }

  /** `badRequest`, `notFound`, `unauthorized` and `forbidden`: `error` with
      a fixed code. */
  function BadRequest(message: string): (r: ErrorResp)
    ensures r.code == 400 && r.message == message
  {
    Error(Some(400), message)
  }

  function NotFound(message: string): (r: ErrorResp)
    ensures r.code == 404 && r.message == message
  {
    Error(Some(404), message)
  }

  function Unauthorized(message: string): (r: ErrorResp)
    ensures r.code == 401 && r.message == message
  {
    Error(Some(401), message)
  }

  function Forbidden(message: string): (r: ErrorResp)
    ensures r.code == 403 && r.message == message
  {
    Error(Some(403), message)
  }

  /** The four named helpers give four different client-error codes, keep
      the message, and never coincide with the 500 fallback. */
  lemma ErrorHelpersAreDistinct(m: string)
    ensures BadRequest(m).code == 400 && NotFound(m).code == 404
    ensures Unauthorized(m).code == 401 && Forbidden(m).code == 403
    ensures forall r :: r in {BadRequest(m), NotFound(m), Unauthorized(m), Forbidden(m)} ==>
      r.message == m && 400 <= r.code < 500 && r != Error(None, m)
    ensures |{BadRequest(m).code, NotFound(m).code, Unauthorized(m).code, Forbidden(m).code}| == 4
  {
  }
}

=== FILE: schemas.dfy ===
/**
 * The request validators of src/schema/: the three user schemas and the two
 * disagreeing song schemas, as predicates over parsed JSON, together with
 * the objects they hand on. Like zod's `z.object`, every schema drops the
 * keys it does not declare.
 */
module Schemas {
  import opened Wrappers
  import opened JsText
  import Claims
  import AuthService
  import SongService

  /** A parsed JSON value. Numbers are integers in this model. */
  datatype Json =
    | JNull
    | JBool(b: bool)
    | JNum(n: int)
    | JStr(s: string)
    | JArr(items: seq<Json>)
    | JObj(fields: map<string, Json>)

  function Get(o: map<string, Json>, k: string): (r: Option<Json>)
    ensures r.Some? <==> k in o
    ensures r.Some? ==> r.value == o[k]
  {
    if k in o then Some(o[k]) else None
  }

  /** JavaScript's `length`: UTF-16 code units, so a character outside the
      Basic Multilingual Plane counts twice. */
  function Utf16Length(s: string): (n: nat)
    ensures n >= |s|
    ensures (forall i :: 0 <= i < |s| ==> s[i] as int <= 0xFFFF) ==> n == |s|
    decreases |s|
  {
    if s == [] then 0 else (if s[0] as int > 0xFFFF then 2 else 1) + Utf16Length(s[1..])
  }

  // ---------------------------------------------------------------- email

  /** `[^\s@]+`: one or more characters, none white space or '@'. */
  predicate Plain(s: string)
  {
    |s| > 0 && forall i :: 0 <= i < |s| ==> !IsJsSpace(s[i]) && s[i] != '@'
  }

  /** `^[^\s@]+@[^\s@]+\.[^\s@]+$` read as a decomposition: a plain part, '@',
      a plain part, '.', a plain part. */
  predicate EmailPattern(s: string)
  {
    exists k, j :: 0 <= k < j < |s| && s[k] == '@' && s[j] == '.'
      && Plain(s[..k]) && Plain(s[k + 1..j]) && Plain(s[j + 1..])
  }

  /** The position of the first '@'. */
  function FirstAt(s: string): (r: Option<nat>)
    ensures r.Some? ==> r.value < |s| && s[r.value] == '@' && forall i :: 0 <= i < r.value ==> s[i] != '@'
    ensures r.None? ==> forall i :: 0 <= i < |s| ==> s[i] != '@'
    decreases |s|
  {
    if s == [] then None
    else if s[0] == '@' then Some(0)
    else
      var rest := FirstAt(s[1..]);
      assert forall i :: 1 <= i < |s| ==> s[i] == s[1..][i - 1];
      match rest
      case None => None
      case Some(k) => Some(k + 1)
  }

  /** The email test as a scan: no white space anywhere, exactly one '@' and
      not at the start, and after it a '.' that is neither the character
      right after the '@' nor the last one. */
  predicate IsEmail(s: string)
  {
    match FirstAt(s)
    case None => false
    case Some(k) =>
      && k > 0
      && (forall i :: 0 <= i < |s| ==> !IsJsSpace(s[i]))
      && (forall i :: k < i < |s| ==> s[i] != '@')
      && (exists j :: k + 1 < j < |s| - 1 && s[j] == '.')
  }

  /** Every string the scan accepts matches the regular expression. */
  lemma EmailScanSound(s: string)
    requires IsEmail(s)
    ensures EmailPattern(s)
  {
    var k := FirstAt(s).value;
    var j :| k + 1 < j < |s| - 1 && s[j] == '.';
    var first := s[..k];
    assert Plain(first) by {
      forall i | 0 <= i < |first| ensures !IsJsSpace(first[i]) && first[i] != '@' {
        assert first[i] == s[i];
      }
    }
    var mid := s[k + 1..j];
    assert Plain(mid) by {
      forall i | 0 <= i < |mid| ensures !IsJsSpace(mid[i]) && mid[i] != '@' {
        assert mid[i] == s[k + 1 + i];
      }
    }
    var last := s[j + 1..];
    assert Plain(last) by {
      forall i | 0 <= i < |last| ensures !IsJsSpace(last[i]) && last[i] != '@' {
        assert last[i] == s[j + 1 + i];
      }
    }
  }

  /** Every string the regular expression matches passes the scan. */
  lemma EmailPatternScanned(s: string, k: nat, j: nat)
    requires 0 <= k < j < |s| && s[k] == '@' && s[j] == '.'
    requires Plain(s[..k]) && Plain(s[k + 1..j]) && Plain(s[j + 1..])
    ensures IsEmail(s)
  {
    var first, mid, last := s[..k], s[k + 1..j], s[j + 1..];
    assert forall i :: 0 <= i < k ==> s[i] == first[i];
    assert forall i :: k < i < j ==> s[i] == mid[i - k - 1];
    assert forall i :: j < i < |s| ==> s[i] == last[i - j - 1];
    assert FirstAt(s) == Some(k);
    forall i | 0 <= i < |s| ensures !IsJsSpace(s[i]) {
      if i < k {} else if i == k {} else if i < j {} else if i == j {} else {}
    }
    assert k + 1 < j < |s| - 1;
  }

  /** The scan accepts exactly the strings the regular expression matches. */
  lemma EmailScanIsPattern(s: string)
    ensures IsEmail(s) <==> EmailPattern(s)
  {
    if IsEmail(s) {
      EmailScanSound(s);
    }
    if EmailPattern(s) {
      var k, j :| 0 <= k < j < |s| && s[k] == '@' && s[j] == '.'
        && Plain(s[..k]) && Plain(s[k + 1..j]) && Plain(s[j + 1..]);
      EmailPatternScanned(s, k, j);
    }
  }

  /** An address the check accepts: the domain may hold several dots and
      the local part may hold one. */
  lemma EmailAccepted()
    ensures IsEmail("a.b@c.d.e")
  {
    assert FirstAt("a.b@c.d.e") == Some(3);
    assert "a.b@c.d.e"[5] == '.';
  }

  /** No dot after the '@', nothing before it, a dot right after it, a dot
      at the end. */
  lemma EmailRejectedShape()
    ensures !IsEmail("a@b")
    ensures !IsEmail("@b.c")
    ensures !IsEmail("a@.c")
    ensures !IsEmail("a@b.")
  {
    assert FirstAt("a@b") == Some(1);
    assert FirstAt("@b.c") == Some(0);
    assert FirstAt("a@.c") == Some(1);
    assert FirstAt("a@b.") == Some(1);
  }

  /** A second '@' or a space anywhere. */
  lemma EmailRejectedChars()
    ensures !IsEmail("a@b@c.d")
    ensures !IsEmail("a b@c.d")
  {
    assert FirstAt("a@b@c.d") == Some(1);
    assert "a@b@c.d"[3] == '@';
    assert IsJsSpace("a b@c.d"[1]);
  }

  // ---------------------------------------------------------- field tests

  /** A present string field of at least `min` UTF-16 units. */
  predicate StrField(o: map<string, Json>, k: string, min: nat)
  {
    k in o && o[k].JStr? && Utf16Length(o[k].s) >= min
  }

  predicate EmailField(o: map<string, Json>)
  {
    "email" in o && o["email"].JStr? && IsEmail(o["email"].s)
  }

  predicate NumField(o: map<string, Json>, k: string)
  {
    k in o && o[k].JNum?
  }

  /** A field absent or, when present, a number. */
  predicate OptNumField(o: map<string, Json>, k: string)
  {
    k !in o || o[k].JNum?
  }

  predicate EnumField(o: map<string, Json>, k: string, allowed: set<string>)
  {
    k in o && o[k].JStr? && o[k].s in allowed
  }

  // ----------------------------------------------------------- userSchema

  /** `loginSchema`. */
  predicate LoginValid(v: Json)
  {
    v.JObj? && EmailField(v.fields) && StrField(v.fields, "password", 6)
  }

  /** `registerSchema`. */
  predicate RegisterValid(v: Json)
  {
    && v.JObj?
    && EmailField(v.fields)
    && StrField(v.fields, "password", 6)
    && StrField(v.fields, "name", 3)
  }

  const UserRoles: set<string> := {"user", "admin"}

  /** `userSchema`. */
  predicate UserValid(v: Json)
  {
    && v.JObj?
    && EmailField(v.fields)
    && StrField(v.fields, "password", 6)
    && StrField(v.fields, "name", 3)
    && ("imageUrl" !in v.fields || v.fields["imageUrl"].JStr?)
    && ("active" !in v.fields || v.fields["active"].JBool?)
    && ("role" !in v.fields || EnumField(v.fields, "role", UserRoles))
  }

  /** Each user schema asks for more than the one before it. */
  lemma UserSchemaHierarchy(v: Json)
    ensures UserValid(v) ==> RegisterValid(v)
    ensures RegisterValid(v) ==> LoginValid(v)
  {
  }

  /** The shortest shape of address the check accepts. */
  lemma SampleEmail()
    ensures IsEmail("a@b.c")
  {
    assert FirstAt("a@b.c") == Some(1);
    assert "a@b.c"[3] == '.';
  }

  /** Passwords need six characters. */
  lemma PasswordThreshold()
    ensures !LoginValid(JObj(map["email" := JStr("a@b.c"), "password" := JStr("12345")]))
    ensures LoginValid(JObj(map["email" := JStr("a@b.c"), "password" := JStr("123456")]))
  {
    SampleEmail();
  }

  /** Names need three characters. */
  lemma NameThreshold()
    ensures !RegisterValid(JObj(map["email" := JStr("a@b.c"), "password" := JStr("123456"), "name" := JStr("Al")]))
    ensures RegisterValid(JObj(map["email" := JStr("a@b.c"), "password" := JStr("123456"), "name" := JStr("Ann")]))
  {
    SampleEmail();
  }

  /** The optional user fields may be left out. */
  lemma UserOptionalFields()
    ensures UserValid(JObj(map["email" := JStr("a@b.c"), "password" := JStr("123456"), "name" := JStr("Ann")]))
  {
    SampleEmail();
  }

  /** A role outside the enum is refused. */
  lemma UserRoleExamples()
    ensures !UserValid(JObj(map["email" := JStr("a@b.c"), "password" := JStr("123456"), "name" := JStr("Ann"),
                                "role" := JStr("root")]))
  {
    SampleEmail();
  }

  /** The login input `loginSchema` hands on: its two declared fields only. */
  function ParseLogin(v: Json): (r: Option<AuthService.LoginInput>)
    ensures r.Some? <==> LoginValid(v)
    ensures r.Some? ==> r.value.email == v.fields["email"].s && r.value.password == v.fields["password"].s
  {
    if LoginValid(v) then Some(AuthService.LoginInput(v.fields["email"].s, v.fields["password"].s)) else None
  }

  /** The register input `registerSchema` hands on: its three declared
      fields only. */
  function ParseRegister(v: Json): (r: Option<AuthService.RegisterInput>)
    ensures r.Some? <==> RegisterValid(v)
    ensures r.Some? ==>
      r.value.email == v.fields["email"].s && r.value.password == v.fields["password"].s && r.value.name == v.fields["name"].s
  {
    if RegisterValid(v) then
      Some(AuthService.RegisterInput(v.fields["email"].s, v.fields["password"].s, v.fields["name"].s))
    else None
  }

  /** A registration body that also sends `role: "admin"` (or any other
      extra field) is read exactly as without it, so the stored user gets
      the default role "user". */
  lemma RegisterIgnoresExtraFields(v: Json, k: string, x: Json, users: AuthService.Users, cfg: AuthService.Config,
                                   salt: string, nowMillis: nat,
                                   hash: (string, string) -> string, sign: (Claims.ClaimSet, string) -> string)
    requires v.JObj? && k != "email" && k != "password" && k != "name"
    requires RegisterValid(v)
    requires AuthService.FindByEmail(users, v.fields["email"].s).None?
    ensures ParseRegister(JObj(v.fields[k := x])) == ParseRegister(v)
    ensures var reg := AuthService.RegisterUser(users, ParseRegister(v).value, cfg, salt, nowMillis, hash, sign);
      reg.0.rows[|users.rows|].role == "user"
  {
    var w := JObj(v.fields[k := x]);
    assert w.fields["email"] == v.fields["email"];
    assert w.fields["password"] == v.fields["password"];
    assert w.fields["name"] == v.fields["name"];
    assert RegisterValid(w);
  }

  // ----------------------------------------------------------- songSchema

  /** The two song schemas: the one the routes use (src/schema/songSchema.ts)
      and the one in src/schema/artistSchema.ts. */
  datatype Variant = SongFile | ArtistFile

  /** The seven string fields, with the image field's spelling. */
  function TextFields(w: Variant): set<string>
  {
    match w
    case SongFile => {"title", "artist", "slug", "imageUrl", "description", "lyric", "releaseAt"}
    case ArtistFile => {"title", "artist", "slug", "image_Url", "description", "lyric", "releaseAt"}
  }

  /** The minimum length of those fields: none, or one. */
  function MinText(w: Variant): nat
  {
    match w
    case SongFile => 0
    case ArtistFile => 1
  }

  /** The name of the association kind field. */
  function KindKey(w: Variant): string
  {
    match w
    case SongFile => "role"
    case ArtistFile => "type"
  }

  function Kinds(w: Variant): set<string>
  {
    match w
    case SongFile => {"singer", "composer", "singer_composer"}
    case ArtistFile => {"singer", "composer", "producer", "band"}
  }

  /** `songArtistSchema`. */
  predicate EntryValid(w: Variant, v: Json)
  {
    && v.JObj?
    && OptNumField(v.fields, "id")
    && NumField(v.fields, "songId")
    && NumField(v.fields, "artistId")
    && EnumField(v.fields, KindKey(w), Kinds(w))
  }

  predicate ArtistsValid(w: Variant, v: Json)
  {
    v.JArr? && forall i :: 0 <= i < |v.items| ==> EntryValid(w, v.items[i])
  }

  /** `songSchema`, or `songSchema.partial()` when `partial` holds (each
      field may then be left out; a present "artists" list is still checked
      entry by entry). */
  predicate SongValid(w: Variant, v: Json, partial: bool)
  {
    && v.JObj?
    && (forall f :: f in TextFields(w) ==> (partial && f !in v.fields) || StrField(v.fields, f, MinText(w)))
    && ((partial && "artists" !in v.fields) || ("artists" in v.fields && ArtistsValid(w, v.fields["artists"])))
  }

  /** One association entry after validation, as the service reads it: zod
      keeps the declared keys only, and the service takes the kind from the
      `type` key. */
  function ToCredit(w: Variant, v: Json): (c: SongService.Credit)
    requires EntryValid(w, v)
    ensures c.artistId == v.fields["artistId"].n
    ensures c.id.Some? <==> "id" in v.fields
    ensures c.id.Some? ==> c.id.value == v.fields["id"].n
    ensures w == SongFile ==> c.kind.None?
    ensures w == ArtistFile ==> c.kind == Some(v.fields["type"].s) && c.kind.value in Kinds(ArtistFile)
  {
    var kept := map k | k in v.fields && k in {"id", "songId", "artistId", KindKey(w)} :: v.fields[k];
    SongService.Credit(
      if "id" in kept then Some(kept["id"].n) else None,
      kept["artistId"].n,
      if "type" in kept && kept["type"].JStr? then Some(kept["type"].s) else None)
  }

  /** The validated body as the service receives it. */
  function ToBody(w: Variant, v: Json, partial: bool): (b: SongService.Body)
    requires SongValid(w, v, partial)
    ensures SongService.WellTyped(b)
    ensures "artists" in b <==> "artists" in v.fields
    ensures "artists" in b ==> |b["artists"].entries| == |v.fields["artists"].items|
    ensures forall f :: f in b && f != "artists" ==> f in TextFields(w) && f in v.fields
    ensures forall f :: f in TextFields(w) && f in v.fields ==> f in b && b[f] == SongService.Text(v.fields[f].s)
    ensures "artists" in b ==> forall i :: 0 <= i < |b["artists"].entries| ==>
      b["artists"].entries[i] == ToCredit(w, v.fields["artists"].items[i])
  {
    var texts := map f | f in TextFields(w) && f in v.fields :: SongService.Text(v.fields[f].s);
    if "artists" in v.fields then
      var items := v.fields["artists"].items;
      texts["artists" := SongService.Credits(seq(|items|, i requires 0 <= i < |items| => ToCredit(w, items[i])))]
    else texts
  }

  /** Through the schema the routes use, no association entry reaches the
      service with a kind: the schema names the field `role`, drops any
      `type`, and the service reads `type`. */
  lemma RoutedBodiesHaveNoKind(v: Json, partial: bool)
    requires SongValid(SongFile, v, partial)
    ensures var b := ToBody(SongFile, v, partial);
      "artists" in b ==> forall i :: 0 <= i < |b["artists"].entries| ==> b["artists"].entries[i].kind.None?
  {
  }

  /** Through the other schema every entry carries one of its four kinds. */
  lemma ArtistFileBodiesHaveKinds(v: Json, partial: bool)
    requires SongValid(ArtistFile, v, partial)
    ensures var b := ToBody(ArtistFile, v, partial);
      "artists" in b ==> forall i :: 0 <= i < |b["artists"].entries| ==>
        b["artists"].entries[i].kind.Some? && b["artists"].entries[i].kind.value in Kinds(ArtistFile)
  {
  }

  /** A partial body without "artists" reaches the service without it, so the
      update leaves the association table as it was. */
  lemma PartialBodyWithoutArtists(w: Variant, v: Json)
    requires SongValid(w, v, true) && "artists" !in v.fields
    ensures "artists" !in ToBody(w, v, true)
  {
  }

  /** The full schemas require the list, though it may be empty. */
  lemma FullSchemaNeedsArtists(w: Variant, v: Json)
    requires SongValid(w, v, false)
    ensures "artists" in v.fields && v.fields["artists"].JArr?
  {
  }

  /** The two schema files disagree: each accepts an entry the other
      refuses, and the routed one accepts empty strings the other refuses. */
  lemma SchemasDisagree()
    ensures var e := JObj(map["songId" := JNum(1), "artistId" := JNum(2), "role" := JStr("singer")]);
      EntryValid(SongFile, e) && !EntryValid(ArtistFile, e)
    ensures var e := JObj(map["songId" := JNum(1), "artistId" := JNum(2), "type" := JStr("band")]);
      !EntryValid(SongFile, e) && EntryValid(ArtistFile, e)
    ensures var e := JObj(map["songId" := JNum(1), "artistId" := JNum(2), "role" := JStr("band")]);
      !EntryValid(SongFile, e)
    ensures var v := JObj(map["title" := JStr(""), "artist" := JStr(""), "slug" := JStr(""), "imageUrl" := JStr(""),
                              "description" := JStr(""), "lyric" := JStr(""), "releaseAt" := JStr(""),
                              "artists" := JArr([])]);
      SongValid(SongFile, v, false) && !SongValid(ArtistFile, v, false)
  {
    var v := JObj(map["title" := JStr(""), "artist" := JStr(""), "slug" := JStr(""), "imageUrl" := JStr(""),
                      "description" := JStr(""), "lyric" := JStr(""), "releaseAt" := JStr(""),
                      "artists" := JArr([])]);
    assert "image_Url" in TextFields(ArtistFile) && "image_Url" !in v.fields;
  }
}

=== FILE: song_artist_repository.dfy ===
/**
 * The `song_artist` association table and the repository operations over it
 * (src/repository/songArtistRepository.ts). The table is a map from row id to
 * row plus the next id the auto-increment key will hand out; audit columns
 * are not part of the model.
 */
module SongArtistRepository {
  import opened Wrappers

  /** One association row without its id (the id is the table key).
      `kind` is the `type` column; `None` is SQL NULL. */
  datatype Row = Row(songId: Option<int>, artistId: Option<int>, kind: Option<string>)

  datatype Table = Table(rows: map<int, Row>, nextId: int)

  /** The auto-increment invariant: every stored id was handed out before. */
  predicate Valid(t: Table)
  {
    forall id :: id in t.rows ==> id < t.nextId
  }

  /** A partial row for `update`: an absent field (`None`) is left alone,
      a present one is written, possibly with NULL. */
  datatype Patch = Patch(songId: Option<Option<int>>, artistId: Option<Option<int>>, kind: Option<Option<string>>)

  /** One element of the list `updateMany` receives. `None` in a field is
      JavaScript `undefined`; the query builder leaves such a column as it is. */
  datatype UpdateEntry = UpdateEntry(id: Option<int>, songId: Option<int>, artistId: Option<int>, kind: Option<string>)

  /** The id the `k`-th row of an insert receives. */
  function FreshId(t: Table, k: int): int { t.nextId + k }

  /** `create`: one insert of all given rows, which receive consecutive fresh ids
      in list order. */
  function Create(t: Table, datas: seq<Row>): (r: Table)
    requires Valid(t)
    ensures Valid(r)
    ensures r.nextId == t.nextId + |datas|
    ensures forall i :: 0 <= i < |datas| ==> FreshId(t, i) in r.rows && r.rows[FreshId(t, i)] == datas[i]
    ensures forall id :: id in t.rows ==> id in r.rows && r.rows[id] == t.rows[id]
    ensures forall id :: id in r.rows ==> id in t.rows || t.nextId <= id < t.nextId + |datas|
  {
    var added := map k | 0 <= k < |datas| :: FreshId(t, k) := datas[k];
    assert forall k :: 0 <= k < |datas| ==> FreshId(t, k) in added && added[FreshId(t, k)] == datas[k];
    Table(t.rows + added, t.nextId + |datas|)
  }

  function ApplyPatch(row: Row, p: Patch): Row
  {
    Row(if p.songId.Some? then p.songId.value else row.songId,
        if p.artistId.Some? then p.artistId.value else row.artistId,
        if p.kind.Some? then p.kind.value else row.kind)
  }

  /** `update(id, data)`: the row with that id, if any, takes the fields the
      patch carries; no other row changes. */
  function Update(t: Table, id: int, p: Patch): (r: Table)
    ensures r.nextId == t.nextId && r.rows.Keys == t.rows.Keys
    ensures forall k :: k in t.rows && k != id ==> r.rows[k] == t.rows[k]
    ensures id in t.rows ==>
      && (p.songId.Some? ==> r.rows[id].songId == p.songId.value)
      && (p.songId.None? ==> r.rows[id].songId == t.rows[id].songId)
      && (p.artistId.Some? ==> r.rows[id].artistId == p.artistId.value)
      && (p.artistId.None? ==> r.rows[id].artistId == t.rows[id].artistId)
      && (p.kind.Some? ==> r.rows[id].kind == p.kind.value)
      && (p.kind.None? ==> r.rows[id].kind == t.rows[id].kind)
  {
    if id in t.rows then Table(t.rows[id := ApplyPatch(t.rows[id], p)], t.nextId) else t
  }

  /** The effect of one `updateMany` entry on a row: `artistId` and `type` are
      written when defined; `songId` and every other column stay. */
  function SetArtistAndKind(row: Row, e: UpdateEntry): Row
  {
    Row(row.songId,
        if e.artistId.Some? then e.artistId else row.artistId,
        if e.kind.Some? then e.kind else row.kind)
  }

  /** One statement of `updateMany`: entries without an id are filtered out;
      the others match on id alone. */
  function UpdateOne(t: Table, e: UpdateEntry): Table
  {
    if e.id.Some? && e.id.value in t.rows
    then Table(t.rows[e.id.value := SetArtistAndKind(t.rows[e.id.value], e)], t.nextId)
    else t
  }

  /** Whether some entry of the list names the id. */
  predicate Lists(datas: seq<UpdateEntry>, id: int)
  {
    exists i :: 0 <= i < |datas| && datas[i].id == Some(id)
  }

  /** No two entries name the same id. */
  predicate DistinctIds(datas: seq<UpdateEntry>)
  {
    forall i, j :: 0 <= i < j < |datas| && datas[i].id.Some? ==> datas[i].id != datas[j].id
  }

  /** `updateMany`: the statements run one after another in list order. The
      set of ids is unchanged, no row changes `songId`, and rows the list does
      not name are untouched. */
  function UpdateMany(t: Table, datas: seq<UpdateEntry>): (r: Table)
    ensures r.nextId == t.nextId && r.rows.Keys == t.rows.Keys
    ensures forall id :: id in t.rows ==> r.rows[id].songId == t.rows[id].songId
    ensures forall id :: id in t.rows && !Lists(datas, id) ==> r.rows[id] == t.rows[id]
    decreases |datas|
  {
    if datas == [] then t
    else
      var r := UpdateMany(UpdateOne(t, datas[0]), datas[1..]);
      assert forall id :: Lists(datas[1..], id) ==> Lists(datas, id) by {
        forall id | Lists(datas[1..], id) ensures Lists(datas, id) {
          var i :| 0 <= i < |datas[1..]| && datas[1..][i].id == Some(id);
          assert datas[i + 1].id == Some(id);
        }
      }
      r
  }

  /** With distinct ids, a row the list names takes exactly that entry's
      `artistId` and `type`, whichever song the row belongs to. */
  lemma {:induction false} UpdateManyNamedRow(t: Table, datas: seq<UpdateEntry>, i: int)
    requires DistinctIds(datas)
    requires 0 <= i < |datas| && datas[i].id.Some? && datas[i].id.value in t.rows
    ensures UpdateMany(t, datas).rows[datas[i].id.value] == SetArtistAndKind(t.rows[datas[i].id.value], datas[i])
    decreases |datas|
  {
    var id := datas[i].id.value;
    var t1 := UpdateOne(t, datas[0]);
    if i == 0 {
      forall j | 0 <= j < |datas[1..]|
        ensures datas[1..][j].id != Some(id)
      {
        assert datas[1..][j] == datas[j + 1];
      }
      assert !Lists(datas[1..], id);
    } else {
      assert datas[0].id != Some(id);
      assert t1.rows[id] == t.rows[id];
      assert DistinctIds(datas[1..]) by {
        forall a, b | 0 <= a < b < |datas[1..]| && datas[1..][a].id.Some?
          ensures datas[1..][a].id != datas[1..][b].id
        {
          assert datas[1..][a] == datas[a + 1] && datas[1..][b] == datas[b + 1];
        }
      }
      assert datas[1..][i - 1] == datas[i];
      UpdateManyNamedRow(t1, datas[1..], i - 1);
    }
  }

  /** `delete(id)`: removes the row with that id, if any. */
  function Delete(t: Table, id: int): (r: Table)
    ensures r.nextId == t.nextId && r.rows.Keys == t.rows.Keys - {id}
    ensures forall k :: k in r.rows ==> r.rows[k] == t.rows[k]
  {
    Table(t.rows - {id}, t.nextId)
  }

  /** `deleteMany(ids)`: removes exactly the rows whose id is listed. */
  function DeleteMany(t: Table, ids: set<int>): (r: Table)
    ensures r.nextId == t.nextId && r.rows.Keys == t.rows.Keys - ids
    ensures forall k :: k in r.rows ==> r.rows[k] == t.rows[k]
  {
    Table(t.rows - ids, t.nextId)
  }

  /** Why a query throws before it reaches the table: the driver refuses to
      bind `undefined` as a statement parameter. */
  datatype QueryError = UndefinedBind

  /** `findBySongId(s)`: the rows whose `songId` equals `s`. An undefined `s`
      becomes a bound parameter the driver refuses, so the select throws. */
  function FindBySongId(t: Table, songId: Option<int>): (r: Result<map<int, Row>, QueryError>)
    ensures r.Err? <==> songId.None?
    ensures r.Ok? ==> forall id :: id in r.value <==> id in t.rows && t.rows[id].songId == songId
    ensures r.Ok? ==> forall id :: id in r.value ==> r.value[id] == t.rows[id]
  {
    if songId.None? then Err(UndefinedBind)
    else Ok(map id | id in t.rows && t.rows[id].songId == songId :: t.rows[id])
  }

  /** Every operation keeps the auto-increment invariant. */
  lemma OperationsKeepValid(t: Table, id: int, p: Patch, datas: seq<UpdateEntry>, ids: set<int>)
    requires Valid(t)
    ensures Valid(Update(t, id, p)) && Valid(UpdateMany(t, datas))
    ensures Valid(Delete(t, id)) && Valid(DeleteMany(t, ids))
  {
  }

  /** Deleting by an empty id list, updating by an empty list and inserting
      nothing all leave the table as it was. */
  lemma EmptyBatchesChangeNothing(t: Table)
    requires Valid(t)
    ensures DeleteMany(t, {}) == t && UpdateMany(t, []) == t && Create(t, []) == t
  {
  }

  /** After an insert, the rows of a song are its earlier rows plus the
      inserted rows stamped with that song. */
  lemma FindAfterCreate(t: Table, datas: seq<Row>, songId: int, id: int)
    requires Valid(t)
    ensures id in FindBySongId(Create(t, datas), Some(songId)).value <==>
      id in FindBySongId(t, Some(songId)).value
      || (t.nextId <= id < t.nextId + |datas| && datas[id - t.nextId].songId == Some(songId))
  {
    var r := Create(t, datas);
    if t.nextId <= id < t.nextId + |datas| {
      var i := id - t.nextId;
      assert FreshId(t, i) in r.rows && r.rows[FreshId(t, i)] == datas[i];
    } else if id in r.rows {
      assert id in t.rows && r.rows[id] == t.rows[id];
    }
  }
}

=== FILE: song_repository.dfy ===
/**
 * The parts of src/repository/songRepository.ts that are not SQL: the
 * paged/unpaged decision and page metadata of `findAll`, and the shape of
 * the value `findById` returns.
 */
module SongRepository {
  import opened Wrappers
  import opened SongArtistRepository

  /** What `findById` returns: `{}` when no song has the id, otherwise the
      song's columns plus `artists`, the association rows of that song. */
  datatype SongView<S> = Blank | Found(id: int, song: S, artists: map<int, Row>)

  /** JavaScript truthiness of a `findById` result. Every object is truthy,
      the empty object `{}` included. */
  predicate IsTruthy<S>(v: SongView<S>)
  {
    v.Blank? || v.Found?
  }

  /** `findById`. `Blank` models the `{}` returned for an unknown id. Like
      every `SongView` it is truthy, so the first clause holds by definition:
      it records why a caller's `if (!song)` guard can never fire. */
  function FindById<S>(songs: map<int, S>, t: Table, id: int): (r: SongView<S>)
    ensures IsTruthy(r)
    ensures r.Blank? <==> id !in songs
    ensures r.Found? ==> r.id == id && r.song == songs[id]
    ensures r.Found? ==> forall k :: k in r.artists <==> k in t.rows && t.rows[k].songId == Some(id)
    ensures r.Found? ==> forall k :: k in r.artists ==> r.artists[k] == t.rows[k]
  {
    if id in songs then Found(id, songs[id], FindBySongId(t, Some(id)).value) else Blank
  }

  /** `Math.ceil(a / b)` for integers, `b` non-zero: the least integer not
      below the exact quotient. */
  function CeilDiv(a: int, b: int): (q: int)
    requires b != 0
    ensures b > 0 ==> q * b >= a && (q - 1) * b < a
    ensures b < 0 ==> q * b <= a && (q - 1) * b > a
  {
    if b > 0 then (a + b - 1) / b else -(a / -b)
  }

  /** The row range a listing reads: everything, or `limit` rows from `offset`. */
  datatype Window = Unlimited | Range(limit: int, offset: int)

  /** The `meta` object of a listing. */
  datatype Meta = Unpaged | Paged(page: int, pageSize: int, totalCount: int, totalPages: int)

  /** A query parameter after `Number(...)`: `None` is NaN (absent or not a
      number). It is falsy when NaN or zero. */
  predicate Falsy(n: Option<int>)
  {
    n.None? || n.value == 0
  }

  /** The arithmetic of `findAll`: which rows it reads and the metadata it
      returns. `countRow` is the first row of the count query, if any. */
  function FindAllShape(page: Option<int>, pageSize: Option<int>, countRow: Option<nat>): (r: (Window, Meta))
    ensures r.1.Unpaged? <==> Falsy(page) || Falsy(pageSize)
    ensures r.0.Unlimited? <==> r.1.Unpaged?
    ensures r.1.Paged? ==>
      && r.1.page == page.value && r.1.pageSize == pageSize.value
      && r.0 == Range(pageSize.value, (page.value - 1) * pageSize.value)
      && (countRow.None? ==> r.1.totalCount == 0)
      && (countRow.Some? ==> r.1.totalCount == countRow.value)
    ensures r.1.Paged? && r.1.pageSize > 0 ==>
      && r.1.totalPages * r.1.pageSize >= r.1.totalCount
      && (r.1.totalCount > 0 ==> (r.1.totalPages - 1) * r.1.pageSize < r.1.totalCount)
      && (r.1.totalCount == 0 ==> r.1.totalPages == 0)
  {
    if Falsy(page) || Falsy(pageSize) then (Unlimited, Unpaged)
    else
      var offset := (page.value - 1) * pageSize.value;
      var totalCount := if countRow.Some? then countRow.value else 0;
      (Range(pageSize.value, offset),
       Paged(page.value, pageSize.value, totalCount, CeilDiv(totalCount, pageSize.value)))
  }

  /** With a positive page size, the last page the metadata announces starts
      inside the result set and the page after it starts past its end. */
  lemma LastPageIsLast(page: int, pageSize: int, count: nat)
    requires page != 0 && pageSize > 0
    ensures var (w, m) := FindAllShape(Some(page), Some(pageSize), Some(count));
      && (count > 0 ==> FindAllShape(Some(m.totalPages), Some(pageSize), Some(count)).0.offset < count)
      && (m.totalPages + 1 != 0 ==> FindAllShape(Some(m.totalPages + 1), Some(pageSize), Some(count)).0.offset >= count)
  {
  }
}

=== FILE: song_service.dfy ===
/**
 * `createSong` and `updateSong` of src/service/songService.ts as
 * compositions of table transformers. `updateSong` runs four steps in this
 * order: insert the request entries that carry no id, re-read the song's
 * associations, delete those whose id the request does not list, and update
 * the listed ids.
 */
module SongService {
  import opened Wrappers
  import opened SongArtistRepository
  import opened SongRepository

  /** One `artists` entry of a request body as the service reads it:
      `id`, `artistId` and `type` (`None` is `undefined`). */
  datatype Credit = Credit(id: Option<int>, artistId: int, kind: Option<string>)

  /** A validated request body: scalar string fields and, under "artists",
      the list of entries. */
  datatype BodyValue = Text(text: string) | Credits(entries: seq<Credit>)

  type Body = map<string, BodyValue>

  /** What the body's type promises: "artists", when present, is a list. */
  predicate WellTyped(body: Body)
  {
    "artists" in body ==> body["artists"].Credits?
  }

  /** `songData.artists`, or `None` when the field is absent. */
  function ArtistsOf(body: Body): Option<seq<Credit>>
    requires WellTyped(body)
  {
    if "artists" in body then Some(body["artists"].entries) else None
  }

  /** Whether some entry of the request carries the id. */
  predicate Names(entries: seq<Credit>, id: int)
  {
    exists j :: 0 <= j < |entries| && entries[j].id == Some(id)
  }

  /** No two entries of the request carry the same id. */
  predicate DistinctCreditIds(entries: seq<Credit>)
  {
    forall i, j :: 0 <= i < j < |entries| && entries[i].id.Some? ==> entries[i].id != entries[j].id
  }

  /** Every id the request carries was handed out by the table before. */
  predicate IdsBelow(entries: seq<Credit>, bound: int)
  {
    forall j :: 0 <= j < |entries| && entries[j].id.Some? ==> entries[j].id.value < bound
  }

  /** The row inserted for an entry: the song id, the entry's artist and type. */
  function Stamp(songId: Option<int>, e: Credit): Row
  {
    Row(songId, Some(e.artistId), e.kind)
  }

  /** The `updateMany` element built for a keyed entry. */
  function ToUpdate(songId: Option<int>, e: Credit): UpdateEntry
  {
    UpdateEntry(e.id, songId, Some(e.artistId), e.kind)
  }

  // ---------------------------------------------------------------- createSong

  /** `createSong`, after the song row itself has been inserted with id
      `songId`: one association per request entry, in request order. */
  function CreateSong(t: Table, songId: int, artists: seq<Credit>): (r: Table)
    requires Valid(t)
    ensures Valid(r) && r.nextId == t.nextId + |artists|
    ensures forall i :: 0 <= i < |artists| ==>
      FreshId(t, i) in r.rows && r.rows[FreshId(t, i)] == Row(Some(songId), Some(artists[i].artistId), artists[i].kind)
    ensures forall k :: k in t.rows ==> k in r.rows && r.rows[k] == t.rows[k]
    ensures forall k :: k in r.rows ==> k in t.rows || t.nextId <= k < t.nextId + |artists|
  {
    Create(t, seq(|artists|, i requires 0 <= i < |artists| => Stamp(Some(songId), artists[i])))
  }

  // ---------------------------------------------------------------- updateSong

  /** The entries whose `id` is undefined, in request order: each id-less
      entry is kept as often as it occurs, and no keyed entry is kept. */
  function Unkeyed(entries: seq<Credit>): (r: seq<Credit>)
    ensures |r| <= |entries|
    ensures forall e :: e in r <==> e in entries && e.id.None?
    ensures forall e :: multiset(r)[e] == (if e.id.None? then multiset(entries)[e] else 0)
  {
    if entries == [] then []
    else
      assert entries == [entries[0]] + entries[1..];
      if entries[0].id.None? then [entries[0]] + Unkeyed(entries[1..])
      else Unkeyed(entries[1..])
  }

  /** The filter keeps request order: filtering a concatenation filters
      each part. */
  lemma {:induction false} UnkeyedAppend(a: seq<Credit>, b: seq<Credit>)
    ensures Unkeyed(a + b) == Unkeyed(a) + Unkeyed(b)
    decreases |a|
  {
    if a == [] {
      assert a + b == b;
    } else {
      assert (a + b)[0] == a[0] && (a + b)[1..] == a[1..] + b;
      UnkeyedAppend(a[1..], b);
    }
  }

  /** Lines 48-54: the rows for the entries whose `id` is undefined, each
      stamped with the song id, in request order. */
  function NewRows(songId: Option<int>, entries: seq<Credit>): (r: seq<Row>)
    ensures |r| == |Unkeyed(entries)|
    ensures forall i :: 0 <= i < |r| ==> r[i] == Stamp(songId, Unkeyed(entries)[i])
  {
    var u := Unkeyed(entries);
    seq(|u|, i requires 0 <= i < |u| => Stamp(songId, u[i]))
  }

  /** The rows to insert follow the request: a concatenation of requests
      gives the concatenation of their rows. */
  lemma NewRowsAppend(songId: Option<int>, a: seq<Credit>, b: seq<Credit>)
    ensures NewRows(songId, a + b) == NewRows(songId, a) + NewRows(songId, b)
  {
    UnkeyedAppend(a, b);
    var l := NewRows(songId, a + b);
    var x := NewRows(songId, a);
    var y := NewRows(songId, b);
    var u := Unkeyed(a + b);
    assert |l| == |u| == |x| + |y|;
    forall i | 0 <= i < |l|
      ensures l[i] == (x + y)[i]
    {
      if i < |x| {
        assert u[i] == Unkeyed(a)[i];
        assert (x + y)[i] == x[i];
      } else {
        assert u[i] == Unkeyed(b)[i - |x|];
        assert (x + y)[i] == y[i - |x|];
      }
    }
    assert l == x + y;
  }

  /** A single entry gives one stamped row exactly when it has no id. */
  lemma NewRowsOfEntry(songId: Option<int>, e: Credit)
    ensures NewRows(songId, [e]) == if e.id.None? then [Stamp(songId, e)] else []
  {
    assert [e][1..] == [];
  }

  /** Lines 62-68: the ids of the re-read rows that no request entry names. */
  function DeleteSet(current: map<int, Row>, entries: seq<Credit>): (r: set<int>)
    ensures forall k :: k in r <==> k in current && !Names(entries, k)
  {
    set k | k in current && !Names(entries, k)
  }

  /** Lines 72-83: the keyed entries whose id is not about to be deleted,
      as `updateMany` elements, in request order. */
  function UpdateList(songId: Option<int>, entries: seq<Credit>, doomed: set<int>): seq<UpdateEntry>
  {
    if entries == [] then []
    else
      var e := entries[0];
      (if e.id.Some? && e.id.value !in doomed then [ToUpdate(songId, e)] else [])
      + UpdateList(songId, entries[1..], doomed)
  }

  /** Every keyed entry as an `updateMany` element, in request order, with no
      filter on the delete set. */
  function KeyedUpdates(songId: Option<int>, entries: seq<Credit>): seq<UpdateEntry>
  {
    if entries == [] then []
    else
      var e := entries[0];
      (if e.id.Some? then [ToUpdate(songId, e)] else []) + KeyedUpdates(songId, entries[1..])
  }

  /** Dropping the first entry keeps the rest's ids distinct. */
  lemma DistinctTail(entries: seq<Credit>)
    requires |entries| > 0 && DistinctCreditIds(entries)
    ensures DistinctCreditIds(entries[1..])
  {
    forall a, b | 0 <= a < b < |entries[1..]| && entries[1..][a].id.Some?
      ensures entries[1..][a].id != entries[1..][b].id
    {
      assert entries[1..][a] == entries[a + 1] && entries[1..][b] == entries[b + 1];
    }
  }

  /** An id names a keyed update exactly when the request carries it. */
  lemma {:induction false} KeyedUpdatesNames(songId: Option<int>, entries: seq<Credit>, k: int)
    ensures Lists(KeyedUpdates(songId, entries), k) <==> Names(entries, k)
    decreases |entries|
  {
    if entries != [] {
      var rest := KeyedUpdates(songId, entries[1..]);
      var head := if entries[0].id.Some? then [ToUpdate(songId, entries[0])] else [];
      var r := head + rest;
      KeyedUpdatesNames(songId, entries[1..], k);
      if Lists(r, k) {
        var i :| 0 <= i < |r| && r[i].id == Some(k);
        if i < |head| {
          assert entries[0].id == Some(k);
        } else {
          assert rest[i - |head|].id == Some(k);
          var j :| 0 <= j < |entries[1..]| && entries[1..][j].id == Some(k);
          assert entries[j + 1].id == Some(k);
        }
      }
      if Names(entries, k) {
        var j :| 0 <= j < |entries| && entries[j].id == Some(k);
        if j == 0 {
          assert r[0].id == Some(k);
        } else {
          assert entries[1..][j - 1].id == Some(k);
          var i :| 0 <= i < |rest| && rest[i].id == Some(k);
          assert r[|head| + i].id == Some(k);
        }
      }
    }
  }

  /** The keyed entry at position `j` appears, converted, in the update list. */
  lemma {:induction false} KeyedUpdatesContains(songId: Option<int>, entries: seq<Credit>, j: int) returns (i: int)
    requires 0 <= j < |entries| && entries[j].id.Some?
    ensures 0 <= i < |KeyedUpdates(songId, entries)| && KeyedUpdates(songId, entries)[i] == ToUpdate(songId, entries[j])
    decreases |entries|
  {
    var rest := KeyedUpdates(songId, entries[1..]);
    var head := if entries[0].id.Some? then [ToUpdate(songId, entries[0])] else [];
    if j == 0 {
      i := 0;
    } else {
      assert entries[1..][j - 1] == entries[j];
      var i' := KeyedUpdatesContains(songId, entries[1..], j - 1);
      i := |head| + i';
      assert (head + rest)[i] == rest[i'];
    }
  }

  /** Distinct request ids give distinct update ids. */
  lemma {:induction false} KeyedUpdatesDistinct(songId: Option<int>, entries: seq<Credit>)
    requires DistinctCreditIds(entries)
    ensures DistinctIds(KeyedUpdates(songId, entries))
    decreases |entries|
  {
    if entries != [] {
      var rest := KeyedUpdates(songId, entries[1..]);
      var head := if entries[0].id.Some? then [ToUpdate(songId, entries[0])] else [];
      var r := head + rest;
      DistinctTail(entries);
      KeyedUpdatesDistinct(songId, entries[1..]);
      if entries[0].id.Some? {
        var k := entries[0].id.value;
        assert !Names(entries[1..], k) by {
          forall j | 0 <= j < |entries[1..]| ensures entries[1..][j].id != Some(k) {
            assert entries[1..][j] == entries[j + 1];
          }
        }
        KeyedUpdatesNames(songId, entries[1..], k);
        forall a, b | 0 <= a < b < |r| && r[a].id.Some?
          ensures r[a].id != r[b].id
        {
          if a == 0 {
            assert r[b] == rest[b - 1];
          } else {
            assert r[a] == rest[a - 1] && r[b] == rest[b - 1];
          }
        }
      } else {
        assert r == rest;
      }
    }
  }

  /** The `includes` filter at line 76 never removes an entry: no id a
      request carries is in the delete set, which holds only ids the request
      does not name. */
  lemma {:induction false} UpdateListIsKeyedUpdates(songId: Option<int>, entries: seq<Credit>, doomed: set<int>)
    requires forall k :: k in doomed ==> !Names(entries, k)
    ensures UpdateList(songId, entries, doomed) == KeyedUpdates(songId, entries)
    decreases |entries|
  {
    if entries != [] {
      forall k | k in doomed ensures !Names(entries[1..], k) {
        forall j | 0 <= j < |entries[1..]| ensures entries[1..][j].id != Some(k) {
          assert entries[1..][j] == entries[j + 1];
        }
      }
      if entries[0].id.Some? {
        assert Names(entries, entries[0].id.value);
      }
      UpdateListIsKeyedUpdates(songId, entries[1..], doomed);
    }
  }

  /** The scalar update at lines 87-88: the body without its "artists" field. */
  function SongUpdate(body: Body): (r: Body)
    ensures "artists" !in r
    ensures forall k :: k in body && k != "artists" ==> k in r && r[k] == body[k]
    ensures forall k :: k in r ==> k in body
  {
    body - {"artists"}
  }

  /** The plan `updateSong` carries out and the table it leaves. */
  datatype Outcome = Outcome(
    inserted: seq<Row>,      // rows given to `create` at line 56
    deleted: set<int>,       // ids given to `deleteMany` at line 70
    updates: seq<UpdateEntry>, // list given to `updateMany` at line 85
    table: Table,            // the association table afterwards
    songUpdate: Body)        // the fields given to the song update at line 90

  /** How `updateSong` throws: the "Song not found" guard, or a query that
      fails after the steps before it have committed, leaving the table `after`. */
  datatype ServiceError = SongNotFound | QueryFailed(after: Table)

  /** `updateSong(id, songData)`. The song table is passed in only to look
      the song up; the final update of its scalar columns is left to storage
      and is represented by the `songUpdate` field of the outcome. The
      "Song not found" guard can never fire, because `findById` returns the
      truthy `{}` for an unknown id. For such an id `song.id` is undefined,
      so the re-read at line 58 throws, after the insert at line 56 has
      committed. An insert of no rows is taken as a no-op. */
  function UpdateSong<S>(songs: map<int, S>, t: Table, id: int, body: Body): (r: Result<Outcome, ServiceError>)
    requires Valid(t) && WellTyped(body)
    ensures r.Ok? <==> id in songs
    ensures r.Ok? ==> Valid(r.value.table) && r.value.songUpdate == SongUpdate(body)
    ensures r.Err? ==> r.error.QueryFailed? && Valid(r.error.after)
  {
    var song := FindById(songs, t, id);
    if !IsTruthy(song) then Err(SongNotFound)
    else
      var songId := if song.Found? then Some(song.id) else None;
      var artists := ArtistsOf(body);
      var inserted := if artists.Some? then NewRows(songId, artists.value) else [];
      var t1 := Create(t, inserted);
      var found := FindBySongId(t1, songId);
      if found.Err? then Err(QueryFailed(t1))
      else
        var current := found.value;
        var doomed := if artists.Some? then DeleteSet(current, artists.value) else {};
        var t2 := DeleteMany(t1, doomed);
        var updates := if artists.Some? then UpdateList(songId, artists.value, doomed) else [];
        var t3 := UpdateMany(t2, updates);
        Ok(Outcome(inserted, doomed, updates, t3, SongUpdate(body)))
  }

  // ---------------------------------------------------------------- properties of updateSong

  /** Which rows survive `updateSong` on a stored song: a row that existed
      before survives when the request names it or it belongs to another
      song; a row inserted by the call survives only when the request happens
      to name the id it just received. */
  lemma UpdateSongMembership<S>(songs: map<int, S>, t: Table, id: int, body: Body, k: int)
    requires Valid(t) && WellTyped(body) && "artists" in body && id in songs
    ensures var es := body["artists"].entries;
      var o := UpdateSong(songs, t, id, body).value;
      k in o.table.rows <==>
        || (k in t.rows && (Names(es, k) || t.rows[k].songId != Some(id)))
        || (t.nextId <= k < t.nextId + |o.inserted| && Names(es, k))
  {
    var es := body["artists"].entries;
    var songId := Some(id);
    var inserted := NewRows(songId, es);
    var t1 := Create(t, inserted);
    var current := FindBySongId(t1, songId).value;
    var doomed := DeleteSet(current, es);
    var t2 := DeleteMany(t1, doomed);
    var updates := UpdateList(songId, es, doomed);
    var t3 := UpdateMany(t2, updates);
    assert UpdateSong(songs, t, id, body) == Ok(Outcome(inserted, doomed, updates, t3, SongUpdate(body)));
    InsertFirstKeys(t, t1, t3, songId, inserted, es, doomed, k);
  }

  /** The key-level core of `UpdateSongMembership`: with the re-read taken
      after the insert, a fresh row is doomed exactly when the request does
      not name its id. */
  lemma InsertFirstKeys(t: Table, t1: Table, t3: Table, songId: Option<int>, inserted: seq<Row>, es: seq<Credit>, doomed: set<int>, k: int)
    requires Valid(t) && songId.Some?
    requires forall i :: 0 <= i < |inserted| ==> inserted[i].songId == songId
    requires t1 == Create(t, inserted)
    requires doomed == DeleteSet(FindBySongId(t1, songId).value, es)
    requires t3.rows.Keys == DeleteMany(t1, doomed).rows.Keys
    ensures k in t3.rows <==>
      || (k in t.rows && (Names(es, k) || t.rows[k].songId != songId))
      || (t.nextId <= k < t.nextId + |inserted| && Names(es, k))
  {
    StepKeys(t, t1, DeleteMany(t1, doomed), t3, |inserted|, doomed, k);
    if k in t.rows {
      assert t1.rows[k] == t.rows[k];
      assert k in doomed <==> t.rows[k].songId == songId && !Names(es, k);
    } else if t.nextId <= k < t.nextId + |inserted| {
      var i := k - t.nextId;
      assert FreshId(t, i) == k;
      assert t1.rows[k] == inserted[i];
      assert k in doomed <==> !Names(es, k);
    }
  }

  /** A row that existed before and that the request names takes that
      entry's `artistId` and `type`; its `songId` stays, even when the row
      belongs to another song. */
  lemma UpdateSongNamedRow<S>(songs: map<int, S>, t: Table, id: int, body: Body, k: int, j: int)
    requires Valid(t) && WellTyped(body) && "artists" in body && id in songs
    requires DistinctCreditIds(body["artists"].entries)
    requires 0 <= j < |body["artists"].entries| && body["artists"].entries[j].id == Some(k) && k in t.rows
    ensures var o := UpdateSong(songs, t, id, body).value;
      && k in o.table.rows
      && o.table.rows[k] == SetArtistAndKind(t.rows[k], ToUpdate(Some(id), body["artists"].entries[j]))
  {
    var es := body["artists"].entries;
    var songId := Some(id);
    var inserted := NewRows(songId, es);
    var t1 := Create(t, inserted);
    var current := FindBySongId(t1, songId).value;
    var doomed := DeleteSet(current, es);
    var t2 := DeleteMany(t1, doomed);
    var updates := UpdateList(songId, es, doomed);
    var t3 := UpdateMany(t2, updates);
    assert UpdateSong(songs, t, id, body) == Ok(Outcome(inserted, doomed, updates, t3, SongUpdate(body)));
    assert Names(es, k);
    UpdateListIsKeyedUpdates(songId, es, doomed);
    var i := KeyedUpdatesContains(songId, es, j);
    KeyedUpdatesDistinct(songId, es);
    UpdateManyNamedRow(t2, updates, i);
  }

  /** A row that existed before, that the request does not name and that
      belongs to another song is left exactly as it was. */
  lemma UpdateSongOtherRow<S>(songs: map<int, S>, t: Table, id: int, body: Body, k: int)
    requires Valid(t) && WellTyped(body) && "artists" in body && id in songs
    requires k in t.rows && !Names(body["artists"].entries, k) && t.rows[k].songId != Some(id)
    ensures var o := UpdateSong(songs, t, id, body).value;
      k in o.table.rows && o.table.rows[k] == t.rows[k]
  {
    var es := body["artists"].entries;
    var songId := Some(id);
    var inserted := NewRows(songId, es);
    var t1 := Create(t, inserted);
    var current := FindBySongId(t1, songId).value;
    var doomed := DeleteSet(current, es);
    var t2 := DeleteMany(t1, doomed);
    var updates := UpdateList(songId, es, doomed);
    var t3 := UpdateMany(t2, updates);
    assert UpdateSong(songs, t, id, body) == Ok(Outcome(inserted, doomed, updates, t3, SongUpdate(body)));
    UpdateListIsKeyedUpdates(songId, es, doomed);
    KeyedUpdatesNames(songId, es, k);
  }

  /** The rows inserted at line 56 are exactly the entries without an id,
      each stamped with the stored song's id. */
  lemma UpdateSongInsertsUnkeyed<S>(songs: map<int, S>, t: Table, id: int, body: Body)
    requires Valid(t) && WellTyped(body) && "artists" in body && id in songs
    ensures var es := body["artists"].entries;
      var o := UpdateSong(songs, t, id, body).value;
      && |o.inserted| <= |es|
      && (forall i :: 0 <= i < |o.inserted| ==>
            exists e :: e in es && e.id.None? && o.inserted[i] == Row(Some(id), Some(e.artistId), e.kind))
      && (forall e :: e in es && e.id.None? ==> Row(Some(id), Some(e.artistId), e.kind) in o.inserted)
      && |o.inserted| == |Unkeyed(es)|
      && (forall i :: 0 <= i < |o.inserted| ==> o.inserted[i] == Stamp(Some(id), Unkeyed(es)[i]))
  {
    var es := body["artists"].entries;
    assert UpdateSong(songs, t, id, body).value.inserted == NewRows(Some(id), es);
    NewRowsAreUnkeyed(Some(id), es);
  }

  /** The rows built for an insert are the entries without an id, stamped. */
  lemma NewRowsAreUnkeyed(songId: Option<int>, es: seq<Credit>)
    ensures var r := NewRows(songId, es);
      && |r| <= |es|
      && (forall i :: 0 <= i < |r| ==> exists e :: e in es && e.id.None? && r[i] == Row(songId, Some(e.artistId), e.kind))
      && (forall e :: e in es && e.id.None? ==> Row(songId, Some(e.artistId), e.kind) in r)
  {
    var r := NewRows(songId, es);
    forall i | 0 <= i < |r|
      ensures exists e :: e in es && e.id.None? && r[i] == Row(songId, Some(e.artistId), e.kind)
    {
      var e := Unkeyed(es)[i];
      assert e in Unkeyed(es);
      assert r[i] == Row(songId, Some(e.artistId), e.kind);
    }
    forall e | e in es && e.id.None?
      ensures Row(songId, Some(e.artistId), e.kind) in r
    {
      assert e in Unkeyed(es);
      var i :| 0 <= i < |Unkeyed(es)| && Unkeyed(es)[i] == e;
      assert r[i] == Row(songId, Some(e.artistId), e.kind);
    }
  }

  /** When every id in the request was handed out before the call (as ids a
      client read back always are), nothing `updateSong` inserts survives:
      the freshly inserted rows are re-read at line 58 and, since no entry
      names them, deleted at line 70. */
  lemma UpdateSongDropsItsInserts<S>(songs: map<int, S>, t: Table, id: int, body: Body)
    requires Valid(t) && WellTyped(body) && "artists" in body && id in songs
    requires IdsBelow(body["artists"].entries, t.nextId)
    ensures var o := UpdateSong(songs, t, id, body).value;
      && o.table.nextId == t.nextId + |o.inserted|
      && (forall i :: 0 <= i < |o.inserted| ==> FreshId(t, i) !in o.table.rows)
      && (forall k :: k in o.table.rows ==> k in t.rows)
  {
    var es := body["artists"].entries;
    var o := UpdateSong(songs, t, id, body).value;
    forall k | t.nextId <= k
      ensures !Names(es, k)
    {
      forall j | 0 <= j < |es| ensures es[j].id != Some(k) {
      }
    }
    forall k ensures k in o.table.rows ==> k in t.rows {
      UpdateSongMembership(songs, t, id, body, k);
    }
    forall i | 0 <= i < |o.inserted| ensures FreshId(t, i) !in o.table.rows {
      UpdateSongMembership(songs, t, id, body, FreshId(t, i));
    }
  }

  /** With every request id handed out before the call, the table after
      the call holds no id it did not hold before. */
  lemma UpdateSongKeepsOnlyOldKeys<S>(songs: map<int, S>, t: Table, id: int, body: Body)
    requires Valid(t) && WellTyped(body) && "artists" in body && id in songs
    requires IdsBelow(body["artists"].entries, t.nextId)
    ensures forall k :: k in UpdateSong(songs, t, id, body).value.table.rows ==> k in t.rows
  {
    var es := body["artists"].entries;
    forall k | k in UpdateSong(songs, t, id, body).value.table.rows ensures k in t.rows {
      UpdateSongMembership(songs, t, id, body, k);
    }
  }

  /** Line 64: `every` over an empty list is true, so `artists: []` deletes
      every association of the song and touches no other row. */
  lemma UpdateSongEmptyListDeletesAll<S>(songs: map<int, S>, t: Table, id: int, body: Body)
    requires Valid(t) && WellTyped(body) && id in songs
    requires "artists" in body && body["artists"].entries == []
    ensures var o := UpdateSong(songs, t, id, body).value;
      && o.inserted == [] && o.updates == []
      && o.table.nextId == t.nextId
      && (forall k :: k in o.table.rows <==> k in t.rows && t.rows[k].songId != Some(id))
      && (forall k :: k in o.table.rows ==> o.table.rows[k] == t.rows[k])
  {
    var o := UpdateSong(songs, t, id, body).value;
    assert |Unkeyed([])| == 0;
    forall k ensures k in o.table.rows <==> k in t.rows && t.rows[k].songId != Some(id) {
      UpdateSongMembership(songs, t, id, body, k);
    }
    forall k | k in o.table.rows ensures o.table.rows[k] == t.rows[k] {
      UpdateSongOtherRow(songs, t, id, body, k);
    }
  }

  /** Lines 48, 64 and 72: optional chaining yields `undefined` when
      `artists` is absent, so nothing is inserted, deleted or updated. */
  lemma UpdateSongWithoutArtistsKeepsTable<S>(songs: map<int, S>, t: Table, id: int, body: Body)
    requires Valid(t) && WellTyped(body) && "artists" !in body
    ensures var r := UpdateSong(songs, t, id, body);
      && (r.Ok? ==> r.value.inserted == [] && r.value.deleted == {} && r.value.updates == [] && r.value.table == t)
      && (r.Err? ==> r.error.after == t)
  {
    assert Create(t, []).rows == t.rows;
    assert DeleteMany(Create(t, []), {}).rows == t.rows;
  }

  /** The `includes` filter never removes an entry: the update list is every
      entry that carries an id, in request order. */
  lemma UpdateSongUpdatesEveryKeyedEntry<S>(songs: map<int, S>, t: Table, id: int, body: Body)
    requires Valid(t) && WellTyped(body) && "artists" in body
    ensures var r := UpdateSong(songs, t, id, body);
      r.Ok? ==>
        && r.value.updates == KeyedUpdates(Some(id), body["artists"].entries)
        && (forall k :: Lists(r.value.updates, k) <==> Names(body["artists"].entries, k))
  {
    if id in songs {
      var es := body["artists"].entries;
      var songId := Some(id);
      var o := UpdateSong(songs, t, id, body).value;
      UpdateListIsKeyedUpdates(songId, es, o.deleted);
      forall k ensures Lists(o.updates, k) <==> Names(es, k) {
        KeyedUpdatesNames(songId, es, k);
      }
    }
  }

  /** For an id no song has, `findById` returns `{}`, the guard at line 44
      lets it through, and `song.id` is undefined. The insert at line 56
      commits the id-less entries with a NULL song id; then the re-read at
      line 58 throws, so nothing is deleted or updated and the song row is
      not written. */
  lemma UpdateSongOnMissingSong<S>(songs: map<int, S>, t: Table, id: int, body: Body)
    requires Valid(t) && WellTyped(body) && "artists" in body && id !in songs
    ensures var r := UpdateSong(songs, t, id, body);
      var u := Unkeyed(body["artists"].entries);
      && r.Err? && r.error.QueryFailed?
      && r.error.after.nextId == t.nextId + |u|
      && (forall k :: k in t.rows ==> k in r.error.after.rows && r.error.after.rows[k] == t.rows[k])
      && (forall i :: 0 <= i < |u| ==>
            FreshId(t, i) in r.error.after.rows
            && r.error.after.rows[FreshId(t, i)] == Row(None, Some(u[i].artistId), u[i].kind))
      && (forall k :: k in r.error.after.rows ==> k in t.rows || t.nextId <= k < t.nextId + |u|)
  {
    var es := body["artists"].entries;
    var inserted := NewRows(None, es);
    var t1 := Create(t, inserted);
    assert UpdateSong(songs, t, id, body) == Err(QueryFailed(t1));
  }

  /** With the re-read first, an unknown id throws before anything is
      written: the table is left as it was. */
  lemma ReadFirstOnMissingSong<S>(songs: map<int, S>, t: Table, id: int, body: Body)
    requires Valid(t) && WellTyped(body) && id !in songs
    ensures var r := UpdateSongReadFirst(songs, t, id, body);
      r.Err? && r.error.QueryFailed? && r.error.after == t
  {
  }

  lemma SetArtistAndKindIdempotent(row: Row, e: UpdateEntry)
    ensures SetArtistAndKind(SetArtistAndKind(row, e), e) == SetArtistAndKind(row, e)
  {
  }

  /** One id of `UpdateSongTwice`: the second call keeps the id exactly when
      the first call left it, with the same row. */
  lemma UpdateSongTwiceAt<S>(songs: map<int, S>, t: Table, id: int, body: Body, k: int)
    requires Valid(t) && WellTyped(body) && "artists" in body && id in songs
    requires DistinctCreditIds(body["artists"].entries) && IdsBelow(body["artists"].entries, t.nextId)
    ensures var once := UpdateSong(songs, t, id, body).value.table;
      var twice := UpdateSong(songs, once, id, body).value.table;
      && (k in twice.rows <==> k in once.rows)
      && (k in once.rows ==> twice.rows[k] == once.rows[k])
  {
    var es := body["artists"].entries;
    var once := UpdateSong(songs, t, id, body).value.table;
    UpdateSongDropsItsInserts(songs, t, id, body);
    assert IdsBelow(es, once.nextId);
    UpdateSongDropsItsInserts(songs, once, id, body);
    UpdateSongMembership(songs, t, id, body, k);
    UpdateSongMembership(songs, once, id, body, k);
    if Names(es, k) {
      var j :| 0 <= j < |es| && es[j].id == Some(k);
      if k in t.rows {
        UpdateSongNamedRow(songs, t, id, body, k, j);
        UpdateSongNamedRow(songs, once, id, body, k, j);
        SetArtistAndKindIdempotent(t.rows[k], ToUpdate(Some(id), es[j]));
      }
    } else if k in t.rows && t.rows[k].songId != Some(id) {
      UpdateSongOtherRow(songs, t, id, body, k);
      UpdateSongOtherRow(songs, once, id, body, k);
    }
  }

  /** Sending the same request twice leaves the same associations as sending
      it once (only the id counter moves on, since the entries without an id
      are inserted and deleted again). */
  lemma UpdateSongTwice<S>(songs: map<int, S>, t: Table, id: int, body: Body)
    requires Valid(t) && WellTyped(body) && "artists" in body && id in songs
    requires DistinctCreditIds(body["artists"].entries) && IdsBelow(body["artists"].entries, t.nextId)
    ensures var once := UpdateSong(songs, t, id, body).value.table;
      UpdateSong(songs, once, id, body).value.table.rows == once.rows
  {
    var once := UpdateSong(songs, t, id, body).value.table;
    var twice := UpdateSong(songs, once, id, body).value.table;
    forall k ensures (k in twice.rows <==> k in once.rows) && (k in once.rows ==> twice.rows[k] == once.rows[k]) {
      UpdateSongTwiceAt(songs, t, id, body, k);
    }
    SameRows(twice.rows, once.rows);
  }

  lemma SameRows(a: map<int, Row>, b: map<int, Row>)
    requires forall k :: k in a <==> k in b
    requires forall k :: k in b ==> a[k] == b[k]
    ensures a == b
  {
    assert forall k :: k in a.Keys <==> k in b.Keys;
    assert a.Keys == b.Keys;
    assert forall k :: k in a ==> a[k] == b[k];
  }

  /** The common edit: a song with exactly two associations `a` and `b`; the
      request lists `a` again and adds one entry without an id. */
  predicate RelistAndAddShape<S>(songs: map<int, S>, t: Table, id: int, body: Body, a: int, b: int)
  {
    && Valid(t) && WellTyped(body) && "artists" in body && id in songs
    && t.rows.Keys == {a, b} && a != b
    && t.rows[a].songId == Some(id) && t.rows[b].songId == Some(id)
    && |body["artists"].entries| == 2
    && body["artists"].entries[0].id == Some(a) && body["artists"].entries[1].id.None?
  }

  /** In that edit, `a` is kept because the request lists it. */
  lemma RelistAndAddKeepsA<S>(songs: map<int, S>, t: Table, id: int, body: Body, a: int, b: int)
    requires RelistAndAddShape(songs, t, id, body, a, b)
    ensures a in UpdateSong(songs, t, id, body).value.table.rows
  {
    TwoEntries(body["artists"].entries, a, b);
    UpdateSongMembership(songs, t, id, body, a);
  }

  /** In that edit, `b` is deleted because the request does not list it. */
  lemma RelistAndAddDropsB<S>(songs: map<int, S>, t: Table, id: int, body: Body, a: int, b: int)
    requires RelistAndAddShape(songs, t, id, body, a, b)
    ensures b !in UpdateSong(songs, t, id, body).value.table.rows
  {
    TwoEntries(body["artists"].entries, a, b);
    UpdateSongMembership(songs, t, id, body, b);
  }

  /** In that edit, the added row does not survive: it is re-read and not
      listed either. */
  lemma RelistAndAddKeys<S>(songs: map<int, S>, t: Table, id: int, body: Body, a: int, b: int)
    requires RelistAndAddShape(songs, t, id, body, a, b)
    ensures UpdateSong(songs, t, id, body).value.table.rows.Keys == {a}
  {
    var rows := UpdateSong(songs, t, id, body).value.table.rows;
    RelistAndAddIdsBelow(songs, t, id, body, a, b);
    UpdateSongKeepsOnlyOldKeys(songs, t, id, body);
    RelistAndAddKeepsA(songs, t, id, body, a, b);
    RelistAndAddDropsB(songs, t, id, body, a, b);
    OnlyKeyLeft(rows, t.rows, a, b);
  }

  lemma RelistAndAddIdsBelow<S>(songs: map<int, S>, t: Table, id: int, body: Body, a: int, b: int)
    requires RelistAndAddShape(songs, t, id, body, a, b)
    ensures IdsBelow(body["artists"].entries, t.nextId)
  {
    var es := body["artists"].entries;
    forall j | 0 <= j < |es| && es[j].id.Some? ensures es[j].id.value < t.nextId {
      assert j == 0;
    }
  }

  /** Set reasoning for the lemma above, kept apart from the table terms. */
  lemma OnlyKeyLeft(m: map<int, Row>, before: map<int, Row>, a: int, b: int)
    requires before.Keys == {a, b}
    requires forall k :: k in m ==> k in before
    requires a in m && b !in m
    ensures m.Keys == {a}
  {
    forall k | k in m.Keys ensures k == a {
      assert k in before.Keys;
    }
  }

  /** In that edit, one row is inserted, for the entry without an id. */
  lemma RelistAndAddInserts<S>(songs: map<int, S>, t: Table, id: int, body: Body, a: int, b: int)
    requires RelistAndAddShape(songs, t, id, body, a, b)
    ensures var es := body["artists"].entries;
      UpdateSong(songs, t, id, body).value.inserted == [Row(Some(id), Some(es[1].artistId), es[1].kind)]
  {
    TwoEntries(body["artists"].entries, a, b);
  }

  /** The request of that edit, apart from any table: one entry without an
      id, and `a` listed while `b` is not. */
  lemma TwoEntries(es: seq<Credit>, a: int, b: int)
    requires |es| == 2 && es[0].id == Some(a) && es[1].id.None? && a != b
    ensures Unkeyed(es) == [es[1]]
    ensures Names(es, a) && !Names(es, b)
  {
    assert es[1..] == [es[1]];
    assert Unkeyed([es[1]]) == [es[1]] + Unkeyed([]);
    assert es[0].id == Some(a);
    forall j | 0 <= j < |es| ensures es[j].id != Some(b) {
      assert j == 0 || j == 1;
    }
  }

  /** So the edit ends with one row, not two: `a`, with the listed values. */
  lemma UpdateSongRelistAndAdd<S>(songs: map<int, S>, t: Table, id: int, body: Body, a: int, b: int)
    requires RelistAndAddShape(songs, t, id, body, a, b)
    ensures var es := body["artists"].entries;
      var o := UpdateSong(songs, t, id, body).value;
      && o.inserted == [Row(Some(id), Some(es[1].artistId), es[1].kind)]
      && o.table.rows == map[a := SetArtistAndKind(t.rows[a], ToUpdate(Some(id), es[0]))]
  {
    RelistAndAddInserts(songs, t, id, body, a, b);
    RelistAndAddKeys(songs, t, id, body, a, b);
    RelistAndAddRowA(songs, t, id, body, a, b);
    var rows := UpdateSong(songs, t, id, body).value.table.rows;
    SingleRow(rows, a, SetArtistAndKind(t.rows[a], ToUpdate(Some(id), body["artists"].entries[0])));
  }

  /** The row kept takes the listed entry's artist and type. */
  lemma RelistAndAddRowA<S>(songs: map<int, S>, t: Table, id: int, body: Body, a: int, b: int)
    requires RelistAndAddShape(songs, t, id, body, a, b)
    ensures var rows := UpdateSong(songs, t, id, body).value.table.rows;
      a in rows && rows[a] == SetArtistAndKind(t.rows[a], ToUpdate(Some(id), body["artists"].entries[0]))
  {
    assert DistinctCreditIds(body["artists"].entries);
    UpdateSongNamedRow(songs, t, id, body, a, 0);
  }

  /** Map reasoning for the lemma above, kept apart from `UpdateSong`. */
  lemma SingleRow(m: map<int, Row>, a: int, v: Row)
    requires m.Keys == {a} && m[a] == v
    ensures m == map[a := v]
  {
    SameRows(m, map[a := v]);
  }

  /** A worked case. Song 7 has associations 1 (artist 10, singer) and 2
      (artist 20, composer); the request re-lists 1 as composer and adds
      artist 30 as band. The result is association 1 alone, now composer. */
  lemma UpdateSongScenario(songs: map<int, string>, t: Table, body: Body)
    requires songs == map[7 := "song"]
    requires t == Table(map[1 := Row(Some(7), Some(10), Some("singer")), 2 := Row(Some(7), Some(20), Some("composer"))], 3)
    requires body == map["artists" := Credits([Credit(Some(1), 10, Some("composer")), Credit(None, 30, Some("band"))])]
    ensures UpdateSong(songs, t, 7, body).value.table.rows == map[1 := Row(Some(7), Some(10), Some("composer"))]
  {
    assert RelistAndAddShape(songs, t, 7, body, 1, 2);
    UpdateSongRelistAndAdd(songs, t, 7, body, 1, 2);
  }

  // ---------------------------------------------------------------- updateSong, reading first

  /** `updateSong` with the re-read moved before the insert, so that the
      delete set is computed from the associations the song had when the
      request arrived. Everything else is as in `UpdateSong`. */
  function UpdateSongReadFirst<S>(songs: map<int, S>, t: Table, id: int, body: Body): (r: Result<Outcome, ServiceError>)
    requires Valid(t) && WellTyped(body)
    ensures r.Ok? <==> id in songs
    ensures r.Ok? ==> Valid(r.value.table) && r.value.songUpdate == SongUpdate(body)
    ensures r.Err? ==> r.error.QueryFailed? && Valid(r.error.after)
  {
    var song := FindById(songs, t, id);
    if !IsTruthy(song) then Err(SongNotFound)
    else
      var songId := if song.Found? then Some(song.id) else None;
      var artists := ArtistsOf(body);
      var found := FindBySongId(t, songId);
      if found.Err? then Err(QueryFailed(t))
      else
        var current := found.value;
        var inserted := if artists.Some? then NewRows(songId, artists.value) else [];
        var t1 := Create(t, inserted);
        var doomed := if artists.Some? then DeleteSet(current, artists.value) else {};
        var t2 := DeleteMany(t1, doomed);
        var updates := if artists.Some? then UpdateList(songId, artists.value, doomed) else [];
        var t3 := UpdateMany(t2, updates);
        Ok(Outcome(inserted, doomed, updates, t3, SongUpdate(body)))
  }

  /** Which rows the corrected order leaves: an old row survives when the
      request names it or it belongs to another song, and every inserted row
      survives. */
  lemma ReadFirstMembership<S>(songs: map<int, S>, t: Table, id: int, body: Body, k: int)
    requires Valid(t) && WellTyped(body) && "artists" in body && id in songs
    ensures var es := body["artists"].entries;
      var o := UpdateSongReadFirst(songs, t, id, body).value;
      k in o.table.rows <==>
        || (k in t.rows && (Names(es, k) || t.rows[k].songId != Some(id)))
        || t.nextId <= k < t.nextId + |o.inserted|
  {
    var es := body["artists"].entries;
    var songId := Some(id);
    var current := FindBySongId(t, songId).value;
    var inserted := NewRows(songId, es);
    var t1 := Create(t, inserted);
    var doomed := DeleteSet(current, es);
    var t2 := DeleteMany(t1, doomed);
    var updates := UpdateList(songId, es, doomed);
    var t3 := UpdateMany(t2, updates);
    assert UpdateSongReadFirst(songs, t, id, body) == Ok(Outcome(inserted, doomed, updates, t3, SongUpdate(body)));
    StepKeys(t, t1, t2, t3, |inserted|, doomed, k);
    assert k in doomed <==> k in t.rows && t.rows[k].songId == songId && !Names(es, k);
  }

  /** The key set after an insert of `n` rows, a delete of `doomed` and an
      update that keeps keys: the old and fresh ids, less the deleted ones. */
  lemma StepKeys(t: Table, t1: Table, t2: Table, t3: Table, n: nat, doomed: set<int>, k: int)
    requires forall id :: id in t.rows ==> id in t1.rows
    requires forall i :: 0 <= i < n ==> FreshId(t, i) in t1.rows
    requires forall id :: id in t1.rows ==> id in t.rows || t.nextId <= id < t.nextId + n
    requires t2.rows.Keys == t1.rows.Keys - doomed && t3.rows.Keys == t2.rows.Keys
    ensures k in t3.rows <==> (k in t.rows || t.nextId <= k < t.nextId + n) && k !in doomed
  {
    if t.nextId <= k < t.nextId + n {
      assert FreshId(t, k - t.nextId) == k;
    }
  }

  /** With the corrected order, every row the call inserts is still there
      afterwards, under the id it received, provided no request entry
      carries an id the table has not handed out yet. */
  lemma ReadFirstKeepsInserts<S>(songs: map<int, S>, t: Table, id: int, body: Body)
    requires Valid(t) && WellTyped(body) && "artists" in body && id in songs
    requires IdsBelow(body["artists"].entries, t.nextId)
    ensures var o := UpdateSongReadFirst(songs, t, id, body).value;
      && o.table.nextId == t.nextId + |o.inserted|
      && forall i :: 0 <= i < |o.inserted| ==> FreshId(t, i) in o.table.rows && o.table.rows[FreshId(t, i)] == o.inserted[i]
  {
    var o := UpdateSongReadFirst(songs, t, id, body).value;
    forall i | 0 <= i < |o.inserted| ensures FreshId(t, i) in o.table.rows && o.table.rows[FreshId(t, i)] == o.inserted[i] {
      ReadFirstKeepsInsertAt(songs, t, id, body, i);
    }
  }

  /** One inserted row of `ReadFirstKeepsInserts`. */
  lemma ReadFirstKeepsInsertAt<S>(songs: map<int, S>, t: Table, id: int, body: Body, i: int)
    requires Valid(t) && WellTyped(body) && "artists" in body && id in songs
    requires IdsBelow(body["artists"].entries, t.nextId)
    requires 0 <= i < |UpdateSongReadFirst(songs, t, id, body).value.inserted|
    ensures var o := UpdateSongReadFirst(songs, t, id, body).value;
      FreshId(t, i) in o.table.rows && o.table.rows[FreshId(t, i)] == o.inserted[i]
  {
    var es := body["artists"].entries;
    var songId := Some(id);
    var current := FindBySongId(t, songId).value;
    var inserted := NewRows(songId, es);
    var t1 := Create(t, inserted);
    var doomed := DeleteSet(current, es);
    var t2 := DeleteMany(t1, doomed);
    var updates := UpdateList(songId, es, doomed);
    var t3 := UpdateMany(t2, updates);
    assert UpdateSongReadFirst(songs, t, id, body) == Ok(Outcome(inserted, doomed, updates, t3, SongUpdate(body)));
    var k := FreshId(t, i);
    FreshIdsAreNotNamed(es, t.nextId, k);
    UpdateListIsKeyedUpdates(songId, es, doomed);
    KeyedUpdatesNames(songId, es, k);
    assert k !in doomed;
    assert t2.rows[k] == inserted[i];
  }

  /** No request entry carries an id at or above a bound all its ids lie below. */
  lemma FreshIdsAreNotNamed(es: seq<Credit>, bound: int, k: int)
    requires IdsBelow(es, bound) && bound <= k
    ensures !Names(es, k)
  {
    forall j | 0 <= j < |es| ensures es[j].id != Some(k) {
    }
  }

  /** The rows of that edit under the corrected order: `a`, kept because it
      is listed, and the inserted row, and nothing else. */
  lemma ReadFirstRelistAndAddKeys<S>(songs: map<int, S>, t: Table, id: int, body: Body, a: int, b: int)
    requires RelistAndAddShape(songs, t, id, body, a, b)
    ensures UpdateSongReadFirst(songs, t, id, body).value.table.rows.Keys == {a, t.nextId}
  {
    var rows := UpdateSongReadFirst(songs, t, id, body).value.table.rows;
    ReadFirstInsertsOne(songs, t, id, body, a, b);
    ReadFirstKeysBound(songs, t, id, body);
    ReadFirstKeepsA(songs, t, id, body, a, b);
    ReadFirstDropsB(songs, t, id, body, a, b);
    ReadFirstRelistAndAddNewRow(songs, t, id, body, a, b);
    KeysOfReadFirst(rows, t.rows, a, b, t.nextId);
  }

  lemma ReadFirstInsertsOne<S>(songs: map<int, S>, t: Table, id: int, body: Body, a: int, b: int)
    requires RelistAndAddShape(songs, t, id, body, a, b)
    ensures var es := body["artists"].entries;
      UpdateSongReadFirst(songs, t, id, body).value.inserted == [Row(Some(id), Some(es[1].artistId), es[1].kind)]
  {
    TwoEntries(body["artists"].entries, a, b);
  }

  /** Under the corrected order the table afterwards holds old ids and the
      ids just handed out, nothing else. */
  lemma ReadFirstKeysBound<S>(songs: map<int, S>, t: Table, id: int, body: Body)
    requires Valid(t) && WellTyped(body) && "artists" in body && id in songs
    ensures var o := UpdateSongReadFirst(songs, t, id, body).value;
      forall k :: k in o.table.rows ==> k in t.rows || t.nextId <= k < t.nextId + |o.inserted|
  {
    forall k | k in UpdateSongReadFirst(songs, t, id, body).value.table.rows
      ensures k in t.rows || t.nextId <= k < t.nextId + |UpdateSongReadFirst(songs, t, id, body).value.inserted|
    {
      ReadFirstMembership(songs, t, id, body, k);
    }
  }

  lemma ReadFirstKeepsA<S>(songs: map<int, S>, t: Table, id: int, body: Body, a: int, b: int)
    requires RelistAndAddShape(songs, t, id, body, a, b)
    ensures a in UpdateSongReadFirst(songs, t, id, body).value.table.rows
  {
    TwoEntries(body["artists"].entries, a, b);
    ReadFirstMembership(songs, t, id, body, a);
  }

  lemma ReadFirstDropsB<S>(songs: map<int, S>, t: Table, id: int, body: Body, a: int, b: int)
    requires RelistAndAddShape(songs, t, id, body, a, b)
    ensures b !in UpdateSongReadFirst(songs, t, id, body).value.table.rows
  {
    TwoEntries(body["artists"].entries, a, b);
    assert b < t.nextId;
    ReadFirstMembership(songs, t, id, body, b);
  }

  /** Set reasoning for `ReadFirstRelistAndAddKeys`, kept apart from the update. */
  lemma KeysOfReadFirst(m: map<int, Row>, before: map<int, Row>, a: int, b: int, n: int)
    requires before.Keys == {a, b}
    requires forall k :: k in m ==> k in before || n <= k < n + 1
    requires a in m && b !in m && n in m
    ensures m.Keys == {a, n}
  {
    forall k | k in m.Keys ensures k == a || k == n {
      assert k in before.Keys || k == n;
    }
  }

  /** Map reasoning for `ReadFirstRelistAndAdd`, kept apart from the update. */
  lemma PairRows(m: map<int, Row>, a: int, va: Row, n: int, vn: Row)
    requires m.Keys == {a, n} && a != n && m[a] == va && m[n] == vn
    ensures m == map[a := va, n := vn]
  {
    SameRows(m, map[a := va, n := vn]);
  }

  /** The worked case of `UpdateSongScenario` under the corrected order:
      association 1 becomes composer, association 2 goes, and the new
      association 3 for artist 30 stays, two rows in all. */
  lemma ReadFirstScenario(songs: map<int, string>, t: Table, body: Body)
    requires songs == map[7 := "song"]
    requires t == Table(map[1 := Row(Some(7), Some(10), Some("singer")), 2 := Row(Some(7), Some(20), Some("composer"))], 3)
    requires body == map["artists" := Credits([Credit(Some(1), 10, Some("composer")), Credit(None, 30, Some("band"))])]
    ensures UpdateSongReadFirst(songs, t, 7, body).value.table.rows ==
      map[1 := Row(Some(7), Some(10), Some("composer")), 3 := Row(Some(7), Some(30), Some("band"))]
  {
    assert RelistAndAddShape(songs, t, 7, body, 1, 2);
    ReadFirstRelistAndAdd(songs, t, 7, body, 1, 2);
  }

  lemma ReadFirstRelistAndAdd<S>(songs: map<int, S>, t: Table, id: int, body: Body, a: int, b: int)
    requires RelistAndAddShape(songs, t, id, body, a, b)
    ensures var es := body["artists"].entries;
      UpdateSongReadFirst(songs, t, id, body).value.table.rows ==
        map[a := SetArtistAndKind(t.rows[a], ToUpdate(Some(id), es[0])), t.nextId := Row(Some(id), Some(es[1].artistId), es[1].kind)]
  {
    var es := body["artists"].entries;
    var rows := UpdateSongReadFirst(songs, t, id, body).value.table.rows;
    ReadFirstRelistAndAddKeys(songs, t, id, body, a, b);
    ReadFirstRelistAndAddRowA(songs, t, id, body, a, b);
    ReadFirstRelistAndAddNewRow(songs, t, id, body, a, b);
    PairRows(rows, a, SetArtistAndKind(t.rows[a], ToUpdate(Some(id), es[0])), t.nextId, Row(Some(id), Some(es[1].artistId), es[1].kind));
  }

  /** A row that existed before and that the request names takes that
      entry's `artistId` and `type` under the corrected order too. */
  lemma ReadFirstNamedRow<S>(songs: map<int, S>, t: Table, id: int, body: Body, k: int, j: int)
    requires Valid(t) && WellTyped(body) && "artists" in body && id in songs
    requires DistinctCreditIds(body["artists"].entries)
    requires 0 <= j < |body["artists"].entries| && body["artists"].entries[j].id == Some(k) && k in t.rows
    ensures var o := UpdateSongReadFirst(songs, t, id, body).value;
      && k in o.table.rows
      && o.table.rows[k] == SetArtistAndKind(t.rows[k], ToUpdate(Some(id), body["artists"].entries[j]))
  {
    var es := body["artists"].entries;
    var songId := Some(id);
    var current := FindBySongId(t, songId).value;
    var inserted := NewRows(songId, es);
    var t1 := Create(t, inserted);
    var doomed := DeleteSet(current, es);
    var t2 := DeleteMany(t1, doomed);
    var updates := UpdateList(songId, es, doomed);
    var t3 := UpdateMany(t2, updates);
    assert UpdateSongReadFirst(songs, t, id, body) == Ok(Outcome(inserted, doomed, updates, t3, SongUpdate(body)));
    assert Names(es, k);
    UpdateListIsKeyedUpdates(songId, es, doomed);
    var i := KeyedUpdatesContains(songId, es, j);
    KeyedUpdatesDistinct(songId, es);
    UpdateManyNamedRow(t2, updates, i);
  }

  lemma ReadFirstRelistAndAddRowA<S>(songs: map<int, S>, t: Table, id: int, body: Body, a: int, b: int)
    requires RelistAndAddShape(songs, t, id, body, a, b)
    ensures var rows := UpdateSongReadFirst(songs, t, id, body).value.table.rows;
      a in rows && rows[a] == SetArtistAndKind(t.rows[a], ToUpdate(Some(id), body["artists"].entries[0]))
  {
    assert DistinctCreditIds(body["artists"].entries);
    ReadFirstNamedRow(songs, t, id, body, a, 0);
  }

  lemma ReadFirstRelistAndAddNewRow<S>(songs: map<int, S>, t: Table, id: int, body: Body, a: int, b: int)
    requires RelistAndAddShape(songs, t, id, body, a, b)
    ensures var es := body["artists"].entries;
      var rows := UpdateSongReadFirst(songs, t, id, body).value.table.rows;
      t.nextId in rows && rows[t.nextId] == Row(Some(id), Some(es[1].artistId), es[1].kind)
  {
    RelistAndAddIdsBelow(songs, t, id, body, a, b);
    ReadFirstKeepsInserts(songs, t, id, body);
    ReadFirstInsertsOne(songs, t, id, body, a, b);
    assert FreshId(t, 0) == t.nextId;
  }

  // ---------------------------------------------------------------- deleteSong

  /** Why the song table refuses a delete: the `song_id` column of
      `song_artist` references `song.id` with no `onDelete` action
      (src/db/schema.ts:69), and the database enforces foreign keys. */
  datatype DeleteError = ForeignKeyViolation

  /** `deleteSong` deletes the song row and nothing else. While association
      rows still reference the song, the foreign key refuses the delete and
      the call throws; the association table is never touched. */
  function DeleteSong<S>(songs: map<int, S>, t: Table, id: int): (r: Result<map<int, S>, DeleteError>)
    ensures r.Err? <==> id in songs && FindBySongId(t, Some(id)).value != map[]
    ensures r.Ok? ==> r.value.Keys == songs.Keys - {id}
    ensures r.Ok? ==> forall k :: k in r.value ==> r.value[k] == songs[k]
  {
    if id in songs && exists k :: k in t.rows && t.rows[k].songId == Some(id) then
      Err(ForeignKeyViolation)
    else
      Ok(songs - {id})
  }

  /** Every association row that names a song names a stored one. */
  predicate ReferencesStored<S>(songs: map<int, S>, t: Table)
  {
    forall k :: k in t.rows && t.rows[k].songId.Some? ==> t.rows[k].songId.value in songs
  }

  /** `deleteSong` never leaves an association pointing at a song that is
      gone: the foreign key is kept. */
  lemma DeleteSongKeepsReferences<S>(songs: map<int, S>, t: Table, id: int)
    requires ReferencesStored(songs, t)
    ensures var r := DeleteSong(songs, t, id);
      r.Ok? ==> ReferencesStored(r.value, t)
  {
  }

  /** Deleting the song's associations first lets the song delete go
      through, and it then removes exactly that song. */
  lemma DeleteSongAfterItsAssociations<S>(songs: map<int, S>, t: Table, id: int)
    ensures var t' := DeleteMany(t, FindBySongId(t, Some(id)).value.Keys);
      var r := DeleteSong(songs, t', id);
      r.Ok? && r.value.Keys == songs.Keys - {id}
  {
  }
}

=== FILE: time.dfy ===
/**
 * Duration strings such as "60s", "2m", "24h", "7d" (src/utils/time.ts):
 * the parser, its lossy inverse, and the `iat`/`exp` claims of a token
 * payload (sections 4.1.6 and 4.1.4 of RFC 7519).
 */
module Time {
  import opened Wrappers
  import opened JsText
  import opened Claims

  /** The four errors the parser throws, in the order it checks for them. */
  datatype ParseError =
    | Undefined      // "timeString is underfined."
    | InvalidFormat  // "Invalid time format. Use format like: 60s, 2m, 24h, 7d"
    | NonPositive    // "Time value must be positive"
    | TooLong        // "Time duration too long"

  /** One year of seconds, the largest duration accepted. */
  const MaxSeconds: nat := 365 * 24 * 60 * 60

  predicate IsUnit(c: char) { c == 's' || c == 'm' || c == 'h' || c == 'd' }

  function Multiplier(u: char): (k: nat)
    requires IsUnit(u)
    ensures k > 0
  {
    if u == 's' then 1 else if u == 'm' then 60 else if u == 'h' then 60 * 60 else 24 * 60 * 60
  }

  /** The pattern `^(\d+)([smhd])$`: one or more ASCII digits followed by one
      unit letter and nothing else. */
  predicate MatchesDuration(s: string)
  {
    |s| >= 2 && IsDigits(s[..|s| - 1]) && IsUnit(s[|s| - 1])
  }

  function ParseTimeToSeconds(s: string): (r: Result<nat, ParseError>)
    ensures r == Err(Undefined) <==> s == []
    ensures r == Err(InvalidFormat) <==> s != [] && !MatchesDuration(s)
    ensures r.Ok? ==> 1 <= r.value <= MaxSeconds
    ensures r.Ok? ==> r.value % Multiplier(s[|s| - 1]) == 0
  {
    if s == [] then Err(Undefined)
    else if !MatchesDuration(s) then Err(InvalidFormat)
    else
      var value := DigitsValue(s[..|s| - 1]);
      if value <= 0 then Err(NonPositive)
      else
        var seconds := value * Multiplier(s[|s| - 1]);
        if seconds > MaxSeconds then Err(TooLong) else Ok(seconds)
  }

  /** A well-formed duration is accepted exactly when its digits denote a
      value between 1 and a year's worth of its unit, and then means that
      value times the unit. */
  lemma ParseWellFormed(digits: string, u: char)
    requires |digits| > 0 && IsDigits(digits) && IsUnit(u)
    ensures var n := DigitsValue(digits) * Multiplier(u);
      && (DigitsValue(digits) == 0 <==> ParseTimeToSeconds(digits + [u]) == Err(NonPositive))
      && (n > MaxSeconds <==> ParseTimeToSeconds(digits + [u]) == Err(TooLong))
      && (1 <= n <= MaxSeconds ==> ParseTimeToSeconds(digits + [u]) == Ok(n))
  {
    var s := digits + [u];
    assert s[..|s| - 1] == digits;
  }

  /** The parser reads back the rendering of any natural number followed by
      a unit letter. */
  lemma ParseRendered(n: nat, u: char)
    requires IsUnit(u)
    ensures var p := ParseTimeToSeconds(NatToDecimal(n) + [u]);
      && (n == 0 ==> p == Err(NonPositive))
      && (n * Multiplier(u) > MaxSeconds ==> p == Err(TooLong))
      && (n >= 1 && n * Multiplier(u) <= MaxSeconds ==> p == Ok(n * Multiplier(u)))
  {
    ParseWellFormed(NatToDecimal(n), u);
  }

  /** The four canonical durations and the one-year edge. */
  lemma ParseAcceptedExamples()
    ensures ParseTimeToSeconds("60s") == Ok(60)
    ensures ParseTimeToSeconds("2m") == Ok(120)
    ensures ParseTimeToSeconds("24h") == Ok(86400)
    ensures ParseTimeToSeconds("7d") == Ok(604800)
    ensures ParseTimeToSeconds("365d") == Ok(MaxSeconds)
  {
    assert NatToDecimal(60) + "s" == "60s";
    ParseRendered(60, 's');
    assert NatToDecimal(2) + "m" == "2m";
    ParseRendered(2, 'm');
    assert NatToDecimal(24) + "h" == "24h";
    ParseRendered(24, 'h');
    assert NatToDecimal(7) + "d" == "7d";
    ParseRendered(7, 'd');
    assert NatToDecimal(36) == "36";
    assert NatToDecimal(365) + "d" == "365d";
    ParseRendered(365, 'd');
  }

  /** Just past one year, in days. */
  lemma ParseTooLongInDays()
    ensures ParseTimeToSeconds("366d") == Err(TooLong)
    ensures ParseTimeToSeconds("400d") == Err(TooLong)
  {
    assert NatToDecimal(36) == "36";
    assert NatToDecimal(366) + "d" == "366d";
    ParseRendered(366, 'd');
    assert NatToDecimal(40) == "40";
    assert NatToDecimal(400) + "d" == "400d";
    ParseRendered(400, 'd');
  }

  /** Just past one year, in hours. */
  lemma ParseTooLongInHours()
    ensures ParseTimeToSeconds("8761h") == Err(TooLong)
  {
    assert NatToDecimal(87) == "87";
    assert NatToDecimal(876) == "876";
    assert NatToDecimal(8761) + "h" == "8761h";
    ParseRendered(8761, 'h');
  }

  /** A zero value, with or without leading zeros, and the malformed inputs. */
  lemma ParseRejectedExamples()
    ensures ParseTimeToSeconds("0s") == Err(NonPositive)
    ensures ParseTimeToSeconds("000m") == Err(NonPositive)
    ensures ParseTimeToSeconds("") == Err(Undefined)
    ensures ParseTimeToSeconds("abc") == Err(InvalidFormat)
    ensures ParseTimeToSeconds("5") == Err(InvalidFormat)
    ensures ParseTimeToSeconds("5w") == Err(InvalidFormat)
    ensures ParseTimeToSeconds("-5s") == Err(InvalidFormat)
    ensures ParseTimeToSeconds("1.5h") == Err(InvalidFormat)
  {
    assert NatToDecimal(0) + "s" == "0s";
    ParseRendered(0, 's');
    assert ParseTimeToSeconds("000m") == Err(NonPositive) by {
      DigitsValueLeadingZero("0");
      DigitsValueLeadingZero("00");
      assert ['0'] + "00" == "000";
      assert DigitsValue("000") == 0;
      assert "000" + ['m'] == "000m";
      ParseWellFormed("000", 'm');
    }
    assert !IsDigit("-5s"[0]);
    assert !IsDigit("1.5h"[1]);
  }

  /** The unit `FormatSeconds` picks for a value of at least one minute. */
  function UnitFor(seconds: int): (u: char)
    ensures IsUnit(u)
    ensures u == 's' <==> seconds < 60
    ensures u == 'm' <==> 60 <= seconds < 3600
    ensures u == 'h' <==> 3600 <= seconds < 86400
    ensures u == 'd' <==> 86400 <= seconds
  {
    if seconds < 60 then 's' else if seconds < 3600 then 'm' else if seconds < 86400 then 'h' else 'd'
  }

  /** Renders a whole number of seconds in the largest unit it reaches,
      rounding down. */
  function FormatSeconds(seconds: int): (r: string)
    ensures |r| >= 2 && r[|r| - 1] == UnitFor(seconds)
    ensures seconds >= 0 ==>
      var count := r[..|r| - 1];
      && IsDigits(count)
      && DigitsValue(count) == seconds / Multiplier(UnitFor(seconds))
      && (|count| > 1 ==> count[0] != '0')
  {
    if seconds < 60 then IntToDecimal(seconds) + "s"
    else if seconds < 3600 then NatToDecimal(seconds / 60) + "m"
    else if seconds < 86400 then NatToDecimal(seconds / 3600) + "h"
    else NatToDecimal(seconds / 86400) + "d"
  }

  /** Formatting then parsing loses at most the remainder below the chosen
      unit: the result never exceeds the input, falls short of it by less
      than one unit, and equals it exactly when the input is a multiple of
      that unit. */
  lemma FormatThenParse(seconds: int)
    requires 1 <= seconds <= MaxSeconds
    ensures var u := Multiplier(UnitFor(seconds));
      && ParseTimeToSeconds(FormatSeconds(seconds)).Ok?
      && var back := ParseTimeToSeconds(FormatSeconds(seconds)).value;
      && back <= seconds
      && seconds - back < u
      && (back == seconds <==> seconds % u == 0)
  {
    var u := Multiplier(UnitFor(seconds));
    FormatParsesToFloor(seconds);
    DivisionFacts(seconds, u);
  }

  /** Parsing the rendering gives the input rounded down to its unit. */
  lemma FormatParsesToFloor(seconds: int)
    requires 1 <= seconds <= MaxSeconds
    ensures var u := Multiplier(UnitFor(seconds));
      ParseTimeToSeconds(FormatSeconds(seconds)) == Ok((seconds / u) * u)
  {
    var c := UnitFor(seconds);
    var u := Multiplier(c);
    var q := seconds / u;
    DivisionFacts(seconds, u);
    assert FormatSeconds(seconds) == NatToDecimal(q) + [c];
    ParseRendered(q, c);
  }

  /** Flooring division by a unit no larger than the value. */
  lemma DivisionFacts(a: int, u: int)
    requires 0 < u <= a
    ensures var q := a / u;
      && q >= 1 && q * u <= a && a - q * u < u
      && (q * u == a <==> a % u == 0)
  {
    var q := a / u;
    assert a == q * u + a % u;
  }

  /** Both thresholds of `FormatSeconds` are exact: 59 stays in seconds,
      60 becomes one minute, and each larger unit starts at its own size. */
  lemma FormatThresholds()
    ensures FormatSeconds(59) == "59s"
    ensures FormatSeconds(60) == "1m"
    ensures FormatSeconds(3599) == "59m"
  {
    assert NatToDecimal(59) == "59";
  }

  lemma FormatLargeUnits()
    ensures FormatSeconds(86399) == "23h"
    ensures FormatSeconds(MaxSeconds) == "365d"
  {
    assert NatToDecimal(23) == "23";
    assert NatToDecimal(36) == "36";
    assert NatToDecimal(365) == "365";
  }

  /** A zero or negative value renders to a string the parser rejects. */
  lemma FormatNonPositive()
    ensures ParseTimeToSeconds(FormatSeconds(0)) == Err(NonPositive)
    ensures ParseTimeToSeconds(FormatSeconds(-5)) == Err(InvalidFormat)
  {
    assert FormatSeconds(0) == "0s";
    ParseWellFormed("0", 's');
    assert FormatSeconds(-5) == "-5s";
    assert !IsDigit("-5s"[0]);
  }

  /** Seconds since the epoch for a millisecond clock reading
      (`Math.floor(Date.now() / 1000)`). */
  function EpochSeconds(nowMillis: nat): nat { nowMillis / 1000 }

  /** `createJWTPayload`: the caller's claims with `exp` and `iat` written
      over them. The source reads the clock twice, first for `exp` and then
      for `iat`; both readings are parameters. */
  function CreateJWTPayload(data: ClaimSet, expiresIn: string, expClockMillis: nat, iatClockMillis: nat)
    : (r: Result<ClaimSet, ParseError>)
    ensures r.Err? <==> ParseTimeToSeconds(expiresIn).Err?
    ensures r.Err? ==> r.error == ParseTimeToSeconds(expiresIn).error
    ensures r.Ok? ==> r.value.Keys == data.Keys + {"exp", "iat"}
    ensures r.Ok? ==> forall k :: k in data && k != "exp" && k != "iat" ==> r.value[k] == data[k]
    ensures r.Ok? ==> r.value["iat"] == CNum(EpochSeconds(iatClockMillis))
    ensures r.Ok? && expClockMillis == iatClockMillis ==>
      r.value["exp"].CNum? && r.value["exp"].n - r.value["iat"].n == ParseTimeToSeconds(expiresIn).value
    ensures r.Ok? && expClockMillis <= iatClockMillis ==>
      r.value["exp"].CNum? && r.value["exp"].n - r.value["iat"].n <= ParseTimeToSeconds(expiresIn).value
  {
    match ParseTimeToSeconds(expiresIn)
    case Err(e) => Err(e)
    case Ok(expiresInSeconds) =>
      Ok(data["exp" := CNum(EpochSeconds(expClockMillis) + expiresInSeconds)]
             ["iat" := CNum(EpochSeconds(iatClockMillis))])
  }
}

=== FILE: wrappers.dfy ===
/** Failure-compatible wrappers shared by every module of the model. */
module Wrappers {

  /** A JavaScript value that may be `undefined` (or SQL NULL, where a column is concerned). */
  datatype Option<+T> = None | Some(value: T)

  /** The outcome of an operation that either returns a value or throws. */
  datatype Result<+T, +E> = Ok(value: T) | Err(error: E)
}
